=== FILE: README.md ===
# Shop catalog and delivery core, in Dafny

This project models the core of a Discord game-shop bot. The core has three parts:

- **Command synthesis** (`command_builders.py`). This covers the remote-console command
  `scriptcommand giveitemtoplayer …` and the creature command
  `scriptcommand SpawnDinoinBall …`. It also covers expanding a kit into one command per
  component, with the per-field default cascade and the joined kit string.
- **Pricing and the "add to shop" wizard** (`shop_ui.py`). This covers:
  - `apply_discounts`;
  - the text-field parsing of the configuration form;
  - the wizard's view state and its transitions (start, category select, item select,
    and the item listing of one page);
  - the submit handler that re-reads the library row and inserts one shop row.
- **The catalog store** (`db.py`). Its queries act on an abstract in-memory store, not on
  SQL. The store has three tables as sequences of rows, and each table has its own id
  counter. The queries are the two upserts, the shop-item insert, the category search,
  the per-category listing and the exact library lookup.

The modules follow that structure:

| module | file | holds |
|---|---|---|
| `Results` | `results.dfy` | `Option`, `Result`, a first-match search |
| `Text` | `text.dfy` | the Python `str` operations the code relies on: `isspace`, `strip`, ASCII `lower`, `str(int)`, `int(str)`, `join`, code-point order; and `split(" ")`, which the code never calls, used only to read a built command back |
| `CommandBuilders` | `command_builders.dfy` | the two grammars, their parsers and round trips, kit expansion, and the creature call as written |
| `Discounts` | `discounts.dfy` | the discount fold and its product form |
| `Db` | `db.dfy` | the store, its validity invariant, the six queries and the `ILIKE` matcher |
| `ShopUi` | `shop_ui.dfy` | form parsing, the view and its transitions, and submit |

Every operation is a pure function. A Python exception becomes a `Failure` in a
`Result`: an unknown component kind, a form field that `int()` rejects, a menu value
that is not an integer, or a missing library row. A database query takes a store and
returns a new store, a row id, a list of `(id, name)` rows, or an optional library row (`FindItemLibrary`, `LibraryById`).

How the code is followed where a reader might expect something else:

- Both commands begin with the word `scriptcommand`, as the code writes them.
- `apply_discounts` truncates toward zero with `int()` and does not clamp. An amount
  above 100 gives a negative price.
- The form does not check that the price is positive. A negative price parses and
  reaches the insert.
- When the selected library row does not exist, the handler fails before any write.
  This is the error value `LibraryRowMissing`. In the source, subscripting the missing
  row (`None`) raises `TypeError`.
- The wizard has no branch for kit-kind shop rows, and neither does the model.
- Discount rules are a parameter of `ApplyDiscounts`. In the source they are a
  module-level list read from `discounts.json` when the module is imported.
- `shop_ui.py` as written cannot be imported: line 12 calls `os.getenv` without
  importing `os`, and line 18 calls `Path` without importing it, so the module raises
  `NameError` before any class exists. The model follows the code past those lines, as
  if both names were imported.
- `show_items` takes a page number, but its only caller (shop_ui.py:44) passes none,
  so the wizard only ever shows page 0: items past the 25th of a category, like
  categories past the 25th, are never offered. `ShopUi.ShowItems` keeps the page
  parameter of `show_items`; `ShopUi.ChooseCategory` always asks for page 0.
- `search_categories` does not escape its query: `%`, `_` and `\` in it act as `ILIKE`
  wildcards and escapes. `Db.Like` models that; the reading "the name contains the
  query" holds only for a query without those characters. The wizard only searches
  with the empty query.

## Model

| member | source | states |
|---|---|---|
| Text.Strip | db.py:125 | `strip()` leaves no whitespace at either end, never grows the text, and gives the empty string exactly when the text is all whitespace |
| Text.StripPadded | db.py:125 | `strip()` removes exactly the surrounding whitespace: a trimmed word padded with whitespace on both sides strips back to that word |
| Text.LowerAscii | shop_ui.py:79 | after `lower()` no capital letter is left; each capital becomes the same letter in lower case and every other character is kept in place |
| Text.LowerAsciiIdempotent | shop_ui.py:79 | lower-casing twice is lower-casing once |
| Text.LowerAsciiFixed | shop_ui.py:79 | `lower()` leaves a text unchanged exactly when it has no capital letter |
| Text.ShowInt | shop_ui.py:38 | `str(n)` is non-empty, has no spaces, starts with `-` exactly for negative numbers, is digits otherwise, and has no leading zero except for 0 itself |
| Text.ParseInt | shop_ui.py:76 | `int()` rejects text that is empty or all whitespace, and any text holding one of the information separators U+001C to U+001F, which `isspace()` accepts but `int()` never skips |
| Text.SeparatorNotIntSpace | shop_ui.py:76 | `strip()` drops a leading U+001C from `\x1c5` while `int()` rejects it, and `int("5")` is 5 |
| Text.ParseShowInt | shop_ui.py:38-43 | `int(str(n)) == n`: a menu value written with `str(id)` reads back as the same id |
| Text.ParsePaddedInt | shop_ui.py:76-80 | `int()` ignores the whitespace it skips (`isspace()` without the information separators) around a number typed into the form |
| Text.SplitJoin | command_builders.py:8-11 | joining fields that have no spaces with single spaces, then splitting on spaces, gives the fields back |
| Text.JoinSnoc | command_builders.py:68-70 | `sep.join` of a list with one more element appends the separator and that element |
| Text.LexLeTotal | db.py:149 | any two names are ordered one way or the other under `order by name` |
| Text.LexLeTransitive | db.py:149 | the name order is transitive |
| Text.LexLeAntisymmetric | db.py:149 | two names each ordered before the other are equal |
| CommandBuilders.GiveItemCommand | command_builders.py:6-11 | the command starts with `scriptcommand giveitemtoplayer ` and, when the item has no space, splits back into exactly its seven fields |
| CommandBuilders.GiveItemSpelled | command_builders.py:6-11 | the command is `scriptcommand giveitemtoplayer <player> <item> <qty> <quality> <flag>`, with flag `1` iff blueprint |
| CommandBuilders.GiveItemRoundTrip | command_builders.py:6-11 | parsing the command gives back the player, item, quantity, quality and blueprint flag; field 6 is `1` iff `bp` |
| CommandBuilders.SpawnDinoCommand | command_builders.py:13-18 | the command starts with `scriptcommand SpawnDinoinBall ` and, when neither the EOS id nor the creature has a space, splits back into its nine fields |
| CommandBuilders.SpawnDinoSpelled | command_builders.py:13-18 | the command is `-p=<eos> -t=<creature> -l=<level> -f=1 -i=1 -b=<flag> -h=1` after the fixed words, with flag `0` when breedable |
| CommandBuilders.SpawnDinoRoundTrip | command_builders.py:13-18 | parsing gives back the EOS id, creature, level and breedability; `-b=0` iff breedable; `-f=1 -i=1` and `-h=1` are always present |
| CommandBuilders.ComponentCommand | command_builders.py:34-55 | one component builds a command exactly when its kind is `dino` or `item`, and fails otherwise with that kind named |
| CommandBuilders.BuildAll | command_builders.py:34-57 | the loop succeeds iff every step succeeds, gives one result per component in order, and otherwise fails with the first failing step's error and no partial list |
| CommandBuilders.KitCommands | command_builders.py:20-57 | `build_kit_commands` gives one command per component, in order, with command i built from component i; an unknown kind fails with the first such kind |
| CommandBuilders.KitString | command_builders.py:60-70 | `build_kit_string` succeeds and fails with `build_kit_commands` and reports the same error |
| CommandBuilders.KitStringSmall | command_builders.py:60-70 | an empty kit gives `""`; a one-component kit gives exactly that component's command |
| CommandBuilders.KitStringSnoc | command_builders.py:60-70 | adding a component appends the delimiter and that component's command to the kit string |
| CommandBuilders.KitStringDefaultPair | command_builders.py:60-70 | with the default delimiter, a two-component kit is its two commands separated by ` \| ` |
| CommandBuilders.KitCommandsSnoc | command_builders.py:31-57 | adding a component at the end of a kit appends its command and leaves the earlier commands as they were |
| CommandBuilders.ItemArguments | command_builders.py:44-52 | for every item component, the command is the give-item command of the component's reference with quantity, quality and blueprint from the component, else the kit defaults, else 1, 1 and false, and the player id skipping unset and zero values down to 1 |
| CommandBuilders.DinoArguments | command_builders.py:35-42 | for every creature component, the command is the spawn command of the component's reference with level and breedability from the component, else the kit defaults, else 225 and true, and the EOS id skipping unset and empty values down to `""` |
| CommandBuilders.BareItemUsesHardDefaults | command_builders.py:31-52 | with no `defaults` dictionary, an item component without fields of its own gives quantity 1, quality 1 and no blueprint |
| CommandBuilders.ItemFieldCascade | command_builders.py:44-52 | for a reference without spaces, the command parses back to these values: quantity, quality and blueprint come from the component, else the kit defaults, else 1, 1 and false; the player id skips unset and zero values and falls back to 1 |
| CommandBuilders.DinoFieldCascade | command_builders.py:35-42 | for a reference and EOS ids without spaces, the command parses back to these values: the level and breedability come from the component, else the kit defaults, else 225 and true; the EOS id skips unset and empty values and falls back to `""`; `-t=` carries the component's reference |
| CommandBuilders.KitCommandsAsWritten | command_builders.py:13-41 | as written, a kit expands only when every component is an item: each creature component raises |
| CommandBuilders.DinoKitFailsAsWritten | command_builders.py:36-41 | a kit of known kinds that holds a creature fails as written, while the corrected expansion succeeds and spawns that creature |
| Discounts.Truncate | shop_ui.py:34 | `int()` truncates toward zero: the result is within one of the exact value, on the zero side |
| Discounts.Factors | shop_ui.py:29-33 | one factor per rule, in list order: a matching rule takes `amount` percent off, any other rule leaves the price alone, and a rule whose amount lies in [0, 100] gives a factor in [0, 1] |
| Discounts.StepIsProduct | shop_ui.py:30-33 | one loop pass multiplies the price by that rule's factor, since at most one of the two tests fires |
| Discounts.DiscountedIsScale | shop_ui.py:28-33 | the loop scales the running price by each rule's factor in turn |
| Discounts.ScaleIsProduct | shop_ui.py:28-33 | scaling by each factor in turn is scaling by their product |
| Discounts.DiscountedIsProduct | shop_ui.py:28-33 | stacking is multiplicative: the loop's result is the base price times the product of the matching factors |
| Discounts.DiscountsCompose | shop_ui.py:29-33 | rules apply in list order: applying `a + b` is applying `a`, then `b` |
| Discounts.ProductInUnitRange | shop_ui.py:31-33 | factors in [0, 1] multiply to a value in [0, 1] |
| Discounts.MultiplierInUnitRange | shop_ui.py:31-33 | with amounts in [0, 100] the overall multiplier lies in [0, 1] |
| Discounts.NoMatchMultiplier | shop_ui.py:30-32 | when no rule matches, the multiplier is 1 |
| Discounts.ApplyDiscounts | shop_ui.py:27-34 | the result is the base price times the multiplier, truncated toward zero; no match keeps the price; a non-negative price with amounts in [0, 100] stays in [0, base price] |
| Discounts.NoRulesKeepPrice | shop_ui.py:27-34 | an empty rule list returns the base price |
| Discounts.HalfPrice | shop_ui.py:30-34 | one matching 50% role rule halves a non-negative price, rounding down |
| Discounts.TwoHalvesCompound | shop_ui.py:29-34 | two matching 50% rules give a quarter of the price, not zero |
| Discounts.NullEventTarget | shop_ui.py:32-33 | with no current event, an event rule with a named target never applies, while one whose target is null does |
| Discounts.NoClampAtZero | shop_ui.py:31-34 | nothing clamps: an amount of 150 turns a price of 100 into -50 |
| Db.EmptyStoreValid | db.py:10-52 | the empty store meets the key constraints |
| Db.CategoryIndex | db.py:15 | finds the first category holding the key, and finds nothing iff no category holds it |
| Db.UpsertCategory | db.py:119-127 | the stripped name is in the table under the returned id; an existing name leaves the store as it was; a new name appends one row with the next id; the other tables are unchanged |
| Db.UpsertCategoryKeepsValid | db.py:119-127 | the category upsert keeps ids unique and names unique and stripped |
| Db.UpsertCategoryIdempotent | db.py:119-127 | repeating the upsert with a name that strips to the same key returns the same id and adds no row |
| Db.LibraryIndex | db.py:24 | finds the first library row with the key `(category, name)`, and finds nothing iff no row has it |
| Db.UpsertLibraryItem | db.py:129-137 | the row `(id, category, stripped name, path)` is in the table; a conflict overwrites only that row's blueprint path; otherwise one row is added with the next id; every row with another key and every other table is unchanged |
| Db.UpsertLibraryItemKeepsValid | db.py:129-137 | the library upsert keeps ids unique and `(category, name)` keys unique and stripped |
| Db.UpsertLibraryItemRepeat | db.py:129-137 | a repeat with the same key keeps the id and the row count, and with the same path changes nothing |
| Db.CreateShopItem | db.py:139-145 | exactly one row is added after the existing ones; it holds the given values, kind `single`, no kit and active; its id is fresh; the other tables are unchanged |
| Db.CreateShopItemTwice | db.py:139-145 | the insert is not idempotent: two calls add two rows with distinct ids |
| Db.LikeSearch | db.py:147-151 | a leading `%` matches any prefix: `s ILIKE '%' + r` holds iff some suffix of `s` matches `r` |
| Db.SearchPatternContains | db.py:147-151 | for a query without `%`, `_` or `\`, the search pattern matches exactly the names that contain the query, ignoring case |
| Db.EmptyQueryMatchesAll | db.py:150 | the pattern built from the empty query matches every name |
| Db.SortByName | db.py:149 | `order by name` gives a permutation of the rows in name order |
| Db.Window | db.py:157-158 | `limit`/`offset` keeps at most `limit` rows, the ones that start at `offset`, in order |
| Db.WindowsConcat | db.py:157-158 | two adjacent pages together are one page twice as long |
| Db.MatchingCategories | db.py:148 | a category is a candidate iff its name matches the pattern, and with unique ids no category is listed twice |
| Db.SearchCategories | db.py:147-151 | exactly `min(limit, number of matching categories)` results, result `k` being the `k`-th matching category in name order, each a category whose name matches the query |
| Db.SearchComplete | db.py:147-151 | with no more matches than the limit, every matching category is returned |
| Db.SearchKeepsFirst | db.py:147-151 | a matching category left out by the limit sorts no earlier than every result returned |
| Db.EmptyQueryKeepsAll | db.py:147-151 | the empty query `%%` matches every category, so all of them are candidates |
| Db.EmptySearchListsAll | db.py:147-151 | the empty query lists every category when there are no more of them than the limit |
| Db.CategoryItems | db.py:155-156 | a row is listed iff it belongs to the requested category, and with unique ids no row is listed twice |
| Db.ListItemsByCategory | db.py:153-159 | result `k` is row `offset + k` of the category's rows in name order, and there are exactly `min(limit, max(n - offset, 0))` of them for `n` rows in the category; each is a row of the category |
| Db.ListPagesConcat | db.py:153-159 | two adjacent pages of the listing are one page twice as long: paging neither skips nor repeats a row |
| Db.EveryItemOnSomePage | db.py:153-159 | every row of the category appears on some page |
| Db.FindItemLibrary | db.py:161-165 | finds a row whose category and name match exactly, and finds nothing iff no row matches |
| Db.UpsertThenFind | db.py:129-165 | after an upsert, the lookup under the stripped name returns the row just written |
| Db.FindDoesNotStrip | db.py:161-165 | the lookup does not strip: a name with surrounding whitespace finds nothing in a valid store |
| Db.LibraryById | shop_ui.py:70 | the lookup by id finds a row with that id, and finds nothing iff no row has it |
| Db.UpsertThenById | shop_ui.py:70 | after an upsert, the row is found by the id the upsert returned |
| ShopUi.BlueprintFlagTrimmed | shop_ui.py:79 | on text without surrounding whitespace the blueprint test only lower-cases |
| ShopUi.BlueprintVocabulary | shop_ui.py:79 | the flag is on iff the stripped, lower-cased text is `true`, `yes`, `1` or `y` |
| ShopUi.BlueprintPaddedUpper | shop_ui.py:79 | surrounding whitespace and upper case are ignored: ` YES ` turns the flag on |
| ShopUi.BlueprintLetter | shop_ui.py:79 | `Y` turns the flag on |
| ShopUi.BlueprintRejected | shop_ui.py:79 | `no` and the empty text leave the flag off |
| ShopUi.BlueprintTrue | shop_ui.py:79 | `true` turns the flag on |
| ShopUi.BlueprintFalse | shop_ui.py:60 | the form's initial text `false` leaves the flag off |
| ShopUi.ParseOptional | shop_ui.py:77-80 | an empty field takes the default; any other text must be an integer, whitespace alone included |
| ShopUi.ParseForm | shop_ui.py:76-80 | fields parse in order, so the first non-integer names the error; on success each value is that field's integer, with quantity 1 and no quality or buy limit for empty fields |
| ShopUi.ParseFormFields | shop_ui.py:76-80 | the form parses to a pricing when each field does |
| ShopUi.ShowOptionalParses | shop_ui.py:77-80 | an optional number written out reads back as itself |
| ShopUi.ParseRenderedForm | shop_ui.py:76-80 | typing a pricing's numbers and flag into the form parses back to that pricing |
| ShopUi.EmptyFieldDefaults | shop_ui.py:77-80 | empty quantity, quality and buy limit become 1, none and none |
| ShopUi.OnlyPriceTyped | shop_ui.py:57-80 | the form as it opens, with only a price typed, gives one unit, no quality, no blueprint and no buy limit; with no price it fails at the price |
| ShopUi.BlankQuantityFails | shop_ui.py:77 | a quantity of spaces is not empty, so it fails instead of defaulting to 1 |
| ShopUi.BlankNotInteger | shop_ui.py:77-80 | a non-empty blank field is rejected |
| ShopUi.Options | shop_ui.py:38 | one menu option per row, in order, captioned with the row's name, whose value reads back as the row's id |
| ShopUi.Start | shop_ui.py:96-101 | start keeps both selections and shows one option per row of the empty search, in its order; it offers `min(25, number of categories)` categories; with at most 25 every one is offered, and otherwise every category left out sorts no earlier than every category offered |
| ShopUi.ItemPage | shop_ui.py:103-107 | `show_items(page)` lists the selected category's rows at offset `page*25`, at most 25, and nothing with no category selected |
| ShopUi.ShowItems | shop_ui.py:103-111 | showing items replaces the menu and keeps both selections |
| ShopUi.ChooseCategory | shop_ui.py:41-44 | a category choice succeeds iff its value is an integer; it sets only the category selection and shows that category's first page |
| ShopUi.ChooseItem | shop_ui.py:51-54 | an item choice succeeds iff its value is an integer; it sets only the item selection and opens the form |
| ShopUi.PickCategory | shop_ui.py:36-44 | picking any offered category selects that category's id |
| ShopUi.PickItem | shop_ui.py:46-54 | picking any offered item selects that row's id and keeps the category |
| ShopUi.EveryItemOffered | shop_ui.py:103-109 | `show_items(page)` offers each row of the selected category for some page (the wizard itself only asks for page 0) |
| ShopUi.StartFresh | shop_ui.py:90-101 | a fresh wizard starts with nothing selected and the category menu of the empty search |
| ShopUi.SelectedRow | shop_ui.py:70 | the re-read finds the selected row by id, and finds nothing when nothing is selected or no row has that id |
| ShopUi.Submit | shop_ui.py:67-82 | a missing row fails first, then a bad field; on success exactly one row is added, with library id, category, name and path from the library row, and the numbers and flag from the form |
| ShopUi.SubmitTwiceAddsTwoRows | shop_ui.py:67-82 | submitting twice inserts twice |
| ShopUi.SubmitRenderedForm | shop_ui.py:67-82 | submitting a rendered form for a stored row adds a row that points at that row and carries exactly the typed values |

## Left out

- `is_shop_admin` (shop_ui.py:24-25) is not modelled. It reads an undefined `user_id`, and it returns a boolean but is used as a decorator.
- The `SCHEMA_SQL` text is not modelled: MySQL DDL, foreign keys, indexes and timestamps. Only the key constraints the queries rely on are modelled, in `Db.Valid`.
- Ids are a counter per table that advances only on insert. A database sequence also advances on an upsert that hits a conflict, so real ids can have gaps. Uniqueness and freshness do not depend on this.
- The connection pool, `pool.acquire`, asyncpg and the view's 300-second timeout are not modelled. They are resource and concurrency plumbing.
- Discord rendering is not modelled: select options, modals, message edits and the success message.
- `autocomplete_items` is not modelled. It is not part of the modelled query set.
- `seed_loader.py`, `app.py` (including `shop_remove`) and `discord-linking.py` are not part of this model.
- Db.SearchCategories: `ILIKE` and `lower()` fold ASCII letters only. Python and the database also fold other scripts.
- Db.SortByName: `order by name` is code-point order. A database collation may order differently. The relative order of equal names is not stated.
- Text.LowerAscii: only ASCII letters are folded. Python's `lower()` folds every script and can lengthen a text (`'İ'.lower()` has two characters). At shop_ui.py:79 this cannot change the outcome: the result is compared with `true`, `1`, `yes` and `y`, and the only non-ASCII character whose `lower()` is all ASCII is the Kelvin sign U+212A, which gives `k`, a letter none of the four words contains; every other non-ASCII character still leaves a non-ASCII character behind.
- Text.ParseInt: no length limit. CPython's `int()` raises `ValueError` on text of more than 4300 digits (the default `sys.int_max_str_digits`); the model parses any length. The form cannot reach it, since a Discord text input holds at most 4000 characters.
- Text.ParseShowInt: holds for every integer, while CPython's `str()` raises `ValueError` above 4300 digits. The numbers written out here are database ids and form values, far below that.
- Text.ParseInt: only ASCII digits are accepted. Python's `int()` also accepts other Unicode decimal digits.
- ShopUi.ItemPage: the page number is a natural number. A negative page would give a negative SQL offset, which the database rejects.
- CommandBuilders.KitCommands: `defaults` entries are typed values. A dictionary entry holding `None` or a non-integer, which would make `int()` or `bool()` raise or misread, is not modelled.
- Discounts.ApplyDiscounts: arithmetic uses exact reals instead of IEEE doubles, so float rounding at the truncation boundary is not modelled.
- Discounts.ApplyDiscounts: rules are typed records, so the `KeyError`s of the source are not modelled. There a rule without `type` always raises, a rule without `target` raises only when its type is `role` or `event`, and a rule without `amount` raises only when it matches.
- Db.CreateShopItem: the `INT UNSIGNED` columns would reject a negative price or quantity. The model stores any integer, as the form lets one through.
- Db.Like: a pattern ending in a lone backslash matches a literal backslash, where the database reports an error. The pattern `%q%` always ends in `%`, so it never ends that way; a query ending in `\` escapes that final `%`, in the model as in the database.

## Findings

| source | as written | input that shows it | evidently intended | confidence | as-written member | corrected member |
|---|---|---|---|---|---|---|
| command_builders.py:13-41 | `build_spawn_dino_command` names its second parameter `item` but interpolates an undefined `dino`, and `build_kit_commands` calls it with the keyword `dino=`, so every creature component raises `TypeError`. This holds where annotations are not evaluated eagerly (CPython 3.14 and later): an older interpreter evaluates the annotations `item: item`, `item: dino` and `Iterable[KitComponent]` (lines 6, 13, 21), whose names are undefined, and the import of the module already fails with `NameError` | a kit with one component of kind `dino` | `-t=` carries the component's `ref`, and the creature command is built like the item command | high (not executed) | CommandBuilders.KitCommandsAsWritten | CommandBuilders.KitCommands |

=== FILE: command_builders.dfy ===
/** Remote-console command synthesis: the give-item and spawn-creature command
    grammars, and the expansion of a kit (an ordered list of components) into
    one command per component. */
module CommandBuilders {
  import opened Results
  import opened Text

  /** One entry of a kit. Every field but `kind` and `ref` may be unset (None). */
  datatype KitComponent = KitComponent(
    kind: string,
    ref: string,
    playerId: Option<int>,
    eosId: Option<string>,
    qty: Option<int>,
    quality: Option<int>,
    lvl: Option<int>,
    breedable: Option<bool>,
    isBp: Option<bool>)

  /** The kit-level `defaults` dictionary; an absent key is None. */
  datatype KitDefaults = KitDefaults(
    lvl: Option<int>,
    breedable: Option<bool>,
    qty: Option<int>,
    quality: Option<int>,
    isBp: Option<bool>)

  /** `defaults or {}` when no dictionary is passed. */
  const NoDefaults := KitDefaults(None, None, None, None, None)

  // Hard-coded fallbacks used when neither the component nor the kit sets a field.
  const DefaultLevel := 225
  const DefaultBreedable := true
  const DefaultQty := 1
  const DefaultQuality := 1
  const DefaultIsBp := false
  const DefaultPlayerId := 1

  datatype KitError =
    | UnknownComponentKind(kind: string)
      /** Raised by the call to the creature builder as the source spells it (see README, Findings). */
    | DinoCallTypeError

  // ---------------------------------------------------------------------------
  // The two command grammars
  // ---------------------------------------------------------------------------

  function BpFlag(bp: bool): string {
    if bp then "1" else "0"
  }

  /** The breeding flag is inverted: `-b=0` means breedable. */
  function BreedFlag(breedable: bool): string {
    if breedable then "0" else "1"
  }

  function GiveItemFields(playerId: int, item: string, qty: int, quality: int, bp: bool): seq<string> {
    ["scriptcommand", "giveitemtoplayer", ShowInt(playerId), item, ShowInt(qty), ShowInt(quality), BpFlag(bp)]
  }

  function SpawnDinoFields(eosId: string, dino: string, lvl: int, breedable: bool): seq<string> {
    ["scriptcommand", "SpawnDinoinBall", "-p=" + eosId, "-t=" + dino, "-l=" + ShowInt(lvl),
     "-f=1", "-i=1", "-b=" + BreedFlag(breedable), "-h=1"]
  }

  /** `build_giveitem_command`: the f-string puts single spaces between the seven
      fields. When the item reference has no space, splitting on spaces recovers them. */
  function GiveItemCommand(playerId: int, item: string, qty: int, quality: int, bp: bool): (r: string)
    ensures HasPrefix(r, "scriptcommand giveitemtoplayer ")
    ensures ' ' !in item ==> Split(r) == GiveItemFields(playerId, item, qty, quality, bp)
  {
    var f := GiveItemFields(playerId, item, qty, quality, bp);
    GiveItemFieldsShape(playerId, item, qty, quality, bp);
    SplitFields(f);
    Join(f, " ")
  }

  lemma GiveItemFieldsShape(playerId: int, item: string, qty: int, quality: int, bp: bool)
    ensures HasPrefix(Join(GiveItemFields(playerId, item, qty, quality, bp), " "), "scriptcommand giveitemtoplayer ")
    ensures ' ' !in item ==> NoSpaces(GiveItemFields(playerId, item, qty, quality, bp))
  {
    GiveItemWords();
    FieldsPrefix(GiveItemFields(playerId, item, qty, quality, bp), "scriptcommand", "giveitemtoplayer",
                 "scriptcommand giveitemtoplayer ");
  }

  /** The command spelled out as the f-string writes it. */
  lemma GiveItemSpelled(playerId: int, item: string, qty: int, quality: int, bp: bool)
    ensures GiveItemCommand(playerId, item, qty, quality, bp)
         == "scriptcommand giveitemtoplayer " + ShowInt(playerId) + " " + item + " " + ShowInt(qty) + " "
            + ShowInt(quality) + " " + (if bp then "1" else "0")
  {
    JoinSeven("scriptcommand", "giveitemtoplayer", ShowInt(playerId), item, ShowInt(qty), ShowInt(quality), BpFlag(bp), " ");
    GiveItemWords();
  }

  lemma GiveItemWords()
    ensures "scriptcommand" + " " + "giveitemtoplayer" + " " == "scriptcommand giveitemtoplayer "
  {
  }

  /** `build_spawn_dino_command`, with `-t=` carrying the creature reference. When
      neither the EOS id nor the reference has a space, splitting recovers the fields. */
  function SpawnDinoCommand(eosId: string, dino: string, lvl: int, breedable: bool): (r: string)
    ensures HasPrefix(r, "scriptcommand SpawnDinoinBall ")
    ensures ' ' !in eosId && ' ' !in dino ==> Split(r) == SpawnDinoFields(eosId, dino, lvl, breedable)
  {
    var f := SpawnDinoFields(eosId, dino, lvl, breedable);
    SpawnDinoPrefix(eosId, dino, lvl, breedable);
    SpawnDinoNoSpaces(eosId, dino, lvl, breedable);
    SplitFields(f);
    Join(f, " ")
  }

  lemma SpawnDinoPrefix(eosId: string, dino: string, lvl: int, breedable: bool)
    ensures HasPrefix(Join(SpawnDinoFields(eosId, dino, lvl, breedable), " "), "scriptcommand SpawnDinoinBall ")
  {
    SpawnDinoWords();
    FieldsPrefix(SpawnDinoFields(eosId, dino, lvl, breedable), "scriptcommand", "SpawnDinoinBall",
                 "scriptcommand SpawnDinoinBall ");
  }

  /** The command spelled out switch by switch, as the f-string writes it. */
  lemma SpawnDinoSpelled(eosId: string, dino: string, lvl: int, breedable: bool)
    ensures SpawnDinoCommand(eosId, dino, lvl, breedable)
         == "scriptcommand SpawnDinoinBall " + ("-p=" + eosId) + " " + ("-t=" + dino) + " " + ("-l=" + ShowInt(lvl))
            + " " + "-f=1" + " " + "-i=1" + " " + ("-b=" + (if breedable then "0" else "1")) + " " + "-h=1"
  {
    JoinNine("scriptcommand", "SpawnDinoinBall", "-p=" + eosId, "-t=" + dino, "-l=" + ShowInt(lvl),
             "-f=1", "-i=1", "-b=" + BreedFlag(breedable), "-h=1", " ");
    SpawnDinoWords();
  }

  lemma SpawnDinoWords()
    ensures "scriptcommand" + " " + "SpawnDinoinBall" + " " == "scriptcommand SpawnDinoinBall "
  {
  }

  /** A command whose first two fields are `a` and `b` starts with `a b `. */
  lemma FieldsPrefix(f: seq<string>, a: string, b: string, p: string)
    requires |f| >= 3 && f[0] == a && f[1] == b && a + " " + b + " " == p
    ensures HasPrefix(Join(f, " "), p)
  {
    JoinPrefix2(f, " ");
  }

  lemma SpawnDinoNoSpaces(eosId: string, dino: string, lvl: int, breedable: bool)
    ensures ' ' !in eosId && ' ' !in dino ==> NoSpaces(SpawnDinoFields(eosId, dino, lvl, breedable))
  {
    if ' ' !in eosId && ' ' !in dino {
      NoSpaceConcat("-p=", eosId);
      NoSpaceConcat("-t=", dino);
      NoSpaceConcat("-l=", ShowInt(lvl));
      NoSpaceConcat("-b=", BreedFlag(breedable));
    }
  }

  lemma NoSpaceConcat(a: string, b: string)
    requires ' ' !in a && ' ' !in b
    ensures ' ' !in a + b
  {
  }

  lemma SplitFields(ws: seq<string>)
    requires |ws| > 0
    ensures NoSpaces(ws) ==> Split(Join(ws, " ")) == ws
  {
    if NoSpaces(ws) {
      SplitJoin(ws);
    }
  }

  // ---------------------------------------------------------------------------
  // Reading a command back
  // ---------------------------------------------------------------------------

  datatype GiveItem = GiveItem(playerId: int, item: string, qty: int, quality: int, bp: bool)
  datatype SpawnDino = SpawnDino(eosId: string, dino: string, lvl: int, breedable: bool)

  /** The fixed words of the give-item grammar are in place. */
  predicate GiveItemShape(f: seq<string>) {
    |f| == 7 && f[0] == "scriptcommand" && f[1] == "giveitemtoplayer" && (f[6] == "0" || f[6] == "1")
  }

  /** The give-item grammar read back field by field. */
  function ParseGiveItem(cmd: string): Option<GiveItem> {
    GiveItemOfFields(Split(cmd))
  }

  function GiveItemOfFields(f: seq<string>): Option<GiveItem> {
    if GiveItemShape(f) then
      var p, q, ql := ParseInt(f[2]), ParseInt(f[4]), ParseInt(f[5]);
      if p.Some? && q.Some? && ql.Some? then Some(GiveItem(p.value, f[3], q.value, ql.value, f[6] == "1")) else None
    else None
  }

  /** The fixed words and switch prefixes of the spawn grammar are in place. */
  predicate SpawnDinoShape(f: seq<string>) {
    && |f| == 9 && f[0] == "scriptcommand" && f[1] == "SpawnDinoinBall"
    && HasPrefix(f[2], "-p=") && HasPrefix(f[3], "-t=") && HasPrefix(f[4], "-l=")
    && f[5] == "-f=1" && f[6] == "-i=1" && (f[7] == "-b=0" || f[7] == "-b=1") && f[8] == "-h=1"
  }

  /** The spawn grammar read back; the breeding flag `-b=0` reads as breedable. */
  function ParseSpawnDino(cmd: string): Option<SpawnDino> {
    SpawnDinoOfFields(Split(cmd))
  }

  function SpawnDinoOfFields(f: seq<string>): Option<SpawnDino> {
    if SpawnDinoShape(f) then
      var lvl := ParseInt(f[4][3..]);
      if lvl.Some? then Some(SpawnDino(f[2][3..], f[3][3..], lvl.value, f[7] == "-b=0")) else None
    else None
  }

  lemma ParseField(f: seq<string>, k: nat, n: int)
    requires k < |f| && f[k] == ShowInt(n)
    ensures ParseInt(f[k]) == Some(n)
  {
    ParseShowInt(n);
  }

  lemma SwitchValue(sw: string, v: string)
    ensures HasPrefix(sw + v, sw) && (sw + v)[|sw|..] == v
  {
    ConcatPrefix(sw, v);
  }

  /** The give-item command carries exactly its arguments, the blueprint flag
      reading `1` iff `bp`. */
  lemma GiveItemRoundTrip(playerId: int, item: string, qty: int, quality: int, bp: bool)
    requires ' ' !in item
    ensures ParseGiveItem(GiveItemCommand(playerId, item, qty, quality, bp)) == Some(GiveItem(playerId, item, qty, quality, bp))
    ensures Split(GiveItemCommand(playerId, item, qty, quality, bp))[6] == (if bp then "1" else "0")
  {
    var f := GiveItemFields(playerId, item, qty, quality, bp);
    assert GiveItemShape(f);
    ParseField(f, 2, playerId);
    ParseField(f, 4, qty);
    ParseField(f, 5, quality);
  }

  /** The spawn command carries exactly its arguments, with `-b=0` iff breedable
      and the fixed `-f=1 -i=1 -h=1` switches. */
  lemma SpawnDinoRoundTrip(eosId: string, dino: string, lvl: int, breedable: bool)
    requires ' ' !in eosId && ' ' !in dino
    ensures ParseSpawnDino(SpawnDinoCommand(eosId, dino, lvl, breedable)) == Some(SpawnDino(eosId, dino, lvl, breedable))
    ensures Split(SpawnDinoCommand(eosId, dino, lvl, breedable))[7] == (if breedable then "-b=0" else "-b=1")
    ensures Split(SpawnDinoCommand(eosId, dino, lvl, breedable))[5..7] == ["-f=1", "-i=1"]
    ensures Split(SpawnDinoCommand(eosId, dino, lvl, breedable))[8] == "-h=1"
  {
    var f := SpawnDinoFields(eosId, dino, lvl, breedable);
    SwitchValue("-p=", eosId);
    SwitchValue("-t=", dino);
    SwitchValue("-l=", ShowInt(lvl));
    assert SpawnDinoShape(f);
    var l := f[4][3..];
    assert l == ShowInt(lvl);
    ParseShowInt(lvl);
    assert ParseInt(l) == Some(lvl);
    assert f[2][3..] == eosId && f[3][3..] == dino;
    if breedable {
      assert f[7] == "-b=0";
    } else {
      assert f[7] == "-b=1" && f[7][3] != "-b=0"[3];
    }
    assert SpawnDinoOfFields(f) == Some(SpawnDino(eosId, dino, lvl, breedable));
  }

  // ---------------------------------------------------------------------------
  // Kits
  // ---------------------------------------------------------------------------

  predicate KnownKind(kind: string) {
    kind == "dino" || kind == "item"
  }

  /** `own if own is not None else defaults.get(key, hard)`. */
  function Cascade<T>(own: Option<T>, kitLevel: Option<T>, hard: T): T {
    match own
    case Some(v) => v
    case None => if kitLevel.Some? then kitLevel.value else hard
  }

  /** Python truthiness of an optional int: None and 0 are falsy. */
  predicate FalsyInt(o: Option<int>) {
    o.None? || o.value == 0
  }

  /** Python truthiness of an optional string: None and "" are falsy. */
  predicate FalsyString(o: Option<string>) {
    o.None? || o.value == ""
  }

  /** `int(c.player_id or player_id or 1)`. */
  function ResolvePlayerId(own: Option<int>, kitLevel: Option<int>): int {
    if !FalsyInt(own) then own.value
    else if !FalsyInt(kitLevel) then kitLevel.value
    else DefaultPlayerId
  }

  /** `c.eos_id or eos_id or ""`. */
  function ResolveEosId(own: Option<string>, kitLevel: Option<string>): string {
    if !FalsyString(own) then own.value
    else if !FalsyString(kitLevel) then kitLevel.value
    else ""
  }

  /** The command for one component, dispatched on its kind. */
  function ComponentCommand(c: KitComponent, playerId: Option<int>, eosId: Option<string>, d: KitDefaults): (r: Result<string, KitError>)
    ensures r.Success? <==> KnownKind(c.kind)
    ensures r.Failure? ==> r.error == UnknownComponentKind(c.kind)
  {
    if c.kind == "dino" then
      Success(SpawnDinoCommand(
        ResolveEosId(c.eosId, eosId), c.ref,
        Cascade(c.lvl, d.lvl, DefaultLevel),
        Cascade(c.breedable, d.breedable, DefaultBreedable)))
    else if c.kind == "item" then
      Success(GiveItemCommand(
        ResolvePlayerId(c.playerId, playerId), c.ref,
        Cascade(c.qty, d.qty, DefaultQty),
        Cascade(c.quality, d.quality, DefaultQuality),
        Cascade(c.isBp, d.isBp, DefaultIsBp)))
    else
      Failure(UnknownComponentKind(c.kind))
  }

  /** Builds every component in order, stopping at the first failure and then
      returning no commands at all. */
  function BuildAll(cs: seq<KitComponent>, build: KitComponent -> Result<string, KitError>): (r: Result<seq<string>, KitError>)
    ensures r.Success? <==> forall i :: 0 <= i < |cs| ==> build(cs[i]).Success?
    ensures r.Success? ==> |r.value| == |cs|
    ensures r.Success? ==> forall i :: 0 <= i < |cs| ==> r.value[i] == build(cs[i]).value
    ensures r.Failure? ==>
      exists i :: 0 <= i < |cs| && build(cs[i]) == Failure(r.error)
                  && forall j :: 0 <= j < i ==> build(cs[j]).Success?
  {
    if |cs| == 0 then Success([])
    else
      match build(cs[0])
      case Failure(e) => Failure(e)
      case Success(cmd) =>
        match BuildAll(cs[1..], build)
        case Failure(e) =>
          ghost var i :| 0 <= i < |cs| - 1 && build(cs[1..][i]) == Failure(e)
                         && forall j :: 0 <= j < i ==> build(cs[1..][j]).Success?;
          assert build(cs[i + 1]) == Failure(e);
          assert forall j :: 0 <= j < i + 1 ==> build(cs[j]).Success? by {
            forall j | 0 <= j < i + 1 ensures build(cs[j]).Success? {
              if j > 0 { assert cs[j] == cs[1..][j - 1]; }
            }
          }
          Failure(e)
        case Success(rest) =>
          assert forall i :: 1 <= i < |cs| ==> build(cs[i]) == build(cs[1..][i - 1]);
          Success([cmd] + rest)
  }

  /** `build_kit_commands`: one command per component, in component order, or the
      unknown kind of the first component that has one. */
  function KitCommands(cs: seq<KitComponent>, playerId: Option<int>, eosId: Option<string>, d: KitDefaults): (r: Result<seq<string>, KitError>)
    ensures r.Success? <==> forall i :: 0 <= i < |cs| ==> KnownKind(cs[i].kind)
    ensures r.Success? ==> |r.value| == |cs|
    ensures r.Success? ==> forall i :: 0 <= i < |cs| ==> Success(r.value[i]) == ComponentCommand(cs[i], playerId, eosId, d)
    ensures r.Failure? ==>
      exists i :: 0 <= i < |cs| && r.error == UnknownComponentKind(cs[i].kind) && !KnownKind(cs[i].kind)
                  && forall j :: 0 <= j < i ==> KnownKind(cs[j].kind)
  {
    BuildAll(cs, c => ComponentCommand(c, playerId, eosId, d))
  }

  /** `build_kit_string`: the kit's commands joined by `delimiter` (" | " by default). */
  function KitString(cs: seq<KitComponent>, playerId: Option<int>, eosId: Option<string>, d: KitDefaults, delimiter: string): (r: Result<string, KitError>)
    ensures r.Success? <==> KitCommands(cs, playerId, eosId, d).Success?
    ensures r.Failure? ==> r.error == KitCommands(cs, playerId, eosId, d).error
  {
    match KitCommands(cs, playerId, eosId, d)
    case Success(cmds) => Success(Join(cmds, delimiter))
    case Failure(e) => Failure(e)
  }

  /** The delimiter `build_kit_string` uses unless told otherwise. */
  const DefaultDelimiter := " | "

  /** With the default delimiter, a two-component kit is its two commands
      separated by ` | `. */
  lemma KitStringDefaultPair(a: KitComponent, b: KitComponent, playerId: Option<int>, eosId: Option<string>, d: KitDefaults)
    requires KnownKind(a.kind) && KnownKind(b.kind)
    ensures KitString([a, b], playerId, eosId, d, DefaultDelimiter)
         == Success(ComponentCommand(a, playerId, eosId, d).value + " | " + ComponentCommand(b, playerId, eosId, d).value)
  {
    KitStringSmall(a, playerId, eosId, d, DefaultDelimiter);
    assert [a] + [b] == [a, b];
    KitStringSnoc([a], b, playerId, eosId, d, DefaultDelimiter);
  }

  /** An empty kit yields the empty string; a one-component kit yields exactly
      that component's command. */
  lemma KitStringSmall(c: KitComponent, playerId: Option<int>, eosId: Option<string>, d: KitDefaults, delimiter: string)
    requires KnownKind(c.kind)
    ensures KitString([], playerId, eosId, d, delimiter) == Success("")
    ensures KitString([c], playerId, eosId, d, delimiter) == ComponentCommand(c, playerId, eosId, d)
  {
    var one := KitCommands([c], playerId, eosId, d);
    assert one.value == [ComponentCommand(c, playerId, eosId, d).value];
  }

  /** Adding a component at the end appends the delimiter and its command. */
  lemma KitStringSnoc(cs: seq<KitComponent>, c: KitComponent, playerId: Option<int>, eosId: Option<string>, d: KitDefaults, delimiter: string)
    requires KnownKind(c.kind) && |cs| > 0
    requires forall i :: 0 <= i < |cs| ==> KnownKind(cs[i].kind)
    ensures KitString(cs + [c], playerId, eosId, d, delimiter)
         == Success(KitString(cs, playerId, eosId, d, delimiter).value + delimiter + ComponentCommand(c, playerId, eosId, d).value)
  {
    var prefix := KitCommands(cs, playerId, eosId, d);
    var all := KitCommandsSnoc(cs, c, playerId, eosId, d);
    JoinSnoc(prefix.value, ComponentCommand(c, playerId, eosId, d).value, delimiter);
  }

  lemma KitCommandsSnoc(cs: seq<KitComponent>, c: KitComponent, playerId: Option<int>, eosId: Option<string>, d: KitDefaults)
    returns (all: Result<seq<string>, KitError>)
    requires KnownKind(c.kind)
    requires forall i :: 0 <= i < |cs| ==> KnownKind(cs[i].kind)
    ensures all == KitCommands(cs + [c], playerId, eosId, d)
    ensures all.Success? && KitCommands(cs, playerId, eosId, d).Success?
    ensures all.value == KitCommands(cs, playerId, eosId, d).value + [ComponentCommand(c, playerId, eosId, d).value]
  {
    all := KitCommands(cs + [c], playerId, eosId, d);
    assert forall i :: 0 <= i < |cs + [c]| ==> KnownKind((cs + [c])[i].kind);
    var prefix := KitCommands(cs, playerId, eosId, d);
    assert (cs + [c])[|cs|] == c;
    forall i | 0 <= i < |cs| ensures all.value[i] == prefix.value[i] {
      assert (cs + [c])[i] == cs[i];
    }
  }

  /** Field resolution for an item component: the component's own value, else the
      kit default, else the hard default (quantity 1, quality 1, not a blueprint);
      the player id skips unset and zero values and falls back to 1. */
  lemma ItemFieldCascade(c: KitComponent, playerId: Option<int>, eosId: Option<string>, d: KitDefaults)
    requires c.kind == "item" && ' ' !in c.ref
    ensures var g := ParseGiveItem(ComponentCommand(c, playerId, eosId, d).value);
      && g.Some?
      && g.value.item == c.ref
      && (c.qty.Some? ==> g.value.qty == c.qty.value)
      && (c.qty.None? && d.qty.Some? ==> g.value.qty == d.qty.value)
      && (c.qty.None? && d.qty.None? ==> g.value.qty == 1)
      && (c.quality.Some? ==> g.value.quality == c.quality.value)
      && (c.quality.None? && d.quality.Some? ==> g.value.quality == d.quality.value)
      && (c.quality.None? && d.quality.None? ==> g.value.quality == 1)
      && (c.isBp.Some? ==> g.value.bp == c.isBp.value)
      && (c.isBp.None? && d.isBp.Some? ==> g.value.bp == d.isBp.value)
      && (c.isBp.None? && d.isBp.None? ==> !g.value.bp)
      && (!FalsyInt(c.playerId) ==> g.value.playerId == c.playerId.value)
      && (FalsyInt(c.playerId) && !FalsyInt(playerId) ==> g.value.playerId == playerId.value)
      && (FalsyInt(c.playerId) && FalsyInt(playerId) ==> g.value.playerId == 1)
  {
    GiveItemRoundTrip(ResolvePlayerId(c.playerId, playerId), c.ref,
      Cascade(c.qty, d.qty, DefaultQty), Cascade(c.quality, d.quality, DefaultQuality),
      Cascade(c.isBp, d.isBp, DefaultIsBp));
  }

  /** The arguments an item component is built with, for every component: the
      command is the give-item command of the component's reference and of
      these values, each resolved by the cascade of `ItemFieldCascade`. */
  lemma ItemArguments(c: KitComponent, playerId: Option<int>, eosId: Option<string>, d: KitDefaults)
    returns (p: int, qty: int, quality: int, bp: bool)
    requires c.kind == "item"
    ensures ComponentCommand(c, playerId, eosId, d) == Success(GiveItemCommand(p, c.ref, qty, quality, bp))
    ensures c.qty.Some? ==> qty == c.qty.value
    ensures c.qty.None? && d.qty.Some? ==> qty == d.qty.value
    ensures c.qty.None? && d.qty.None? ==> qty == 1
    ensures c.quality.Some? ==> quality == c.quality.value
    ensures c.quality.None? && d.quality.Some? ==> quality == d.quality.value
    ensures c.quality.None? && d.quality.None? ==> quality == 1
    ensures c.isBp.Some? ==> bp == c.isBp.value
    ensures c.isBp.None? && d.isBp.Some? ==> bp == d.isBp.value
    ensures c.isBp.None? && d.isBp.None? ==> !bp
    ensures !FalsyInt(c.playerId) ==> p == c.playerId.value
    ensures FalsyInt(c.playerId) && !FalsyInt(playerId) ==> p == playerId.value
    ensures FalsyInt(c.playerId) && FalsyInt(playerId) ==> p == 1
  {
    p := ResolvePlayerId(c.playerId, playerId);
    qty := Cascade(c.qty, d.qty, DefaultQty);
    quality := Cascade(c.quality, d.quality, DefaultQuality);
    bp := Cascade(c.isBp, d.isBp, DefaultIsBp);
  }

  /** The arguments a creature component is built with, for every component:
      the command is the spawn command of the component's reference and of
      these values, each resolved by the cascade of `DinoFieldCascade`. */
  lemma DinoArguments(c: KitComponent, playerId: Option<int>, eosId: Option<string>, d: KitDefaults)
    returns (eos: string, lvl: int, breedable: bool)
    requires c.kind == "dino"
    ensures ComponentCommand(c, playerId, eosId, d) == Success(SpawnDinoCommand(eos, c.ref, lvl, breedable))
    ensures c.lvl.Some? ==> lvl == c.lvl.value
    ensures c.lvl.None? && d.lvl.Some? ==> lvl == d.lvl.value
    ensures c.lvl.None? && d.lvl.None? ==> lvl == 225
    ensures c.breedable.Some? ==> breedable == c.breedable.value
    ensures c.breedable.None? && d.breedable.Some? ==> breedable == d.breedable.value
    ensures c.breedable.None? && d.breedable.None? ==> breedable
    ensures !FalsyString(c.eosId) ==> eos == c.eosId.value
    ensures FalsyString(c.eosId) && !FalsyString(eosId) ==> eos == eosId.value
    ensures FalsyString(c.eosId) && FalsyString(eosId) ==> eos == ""
  {
    eos := ResolveEosId(c.eosId, eosId);
    lvl := Cascade(c.lvl, d.lvl, DefaultLevel);
    breedable := Cascade(c.breedable, d.breedable, DefaultBreedable);
  }

  /** With no `defaults` dictionary, an item component with no fields of its
      own gives one unit of quality 1, not a blueprint. */
  lemma BareItemUsesHardDefaults(ref: string, playerId: int)
    requires playerId != 0
    ensures ComponentCommand(KitComponent("item", ref, None, None, None, None, None, None, None), Some(playerId), None, NoDefaults)
         == Success(GiveItemCommand(playerId, ref, 1, 1, false))
  {
    var p, q, ql, bp := ItemArguments(KitComponent("item", ref, None, None, None, None, None, None, None), Some(playerId), None, NoDefaults);
  }

  /** Field resolution for a creature component: level 225 and breedable unless the
      component or the kit says otherwise; the EOS id skips unset and empty values. */
  lemma DinoFieldCascade(c: KitComponent, playerId: Option<int>, eosId: Option<string>, d: KitDefaults)
    requires c.kind == "dino" && ' ' !in c.ref
    requires c.eosId.Some? ==> ' ' !in c.eosId.value
    requires eosId.Some? ==> ' ' !in eosId.value
    ensures var g := ParseSpawnDino(ComponentCommand(c, playerId, eosId, d).value);
      && g.Some?
      && g.value.dino == c.ref
      && (c.lvl.Some? ==> g.value.lvl == c.lvl.value)
      && (c.lvl.None? && d.lvl.Some? ==> g.value.lvl == d.lvl.value)
      && (c.lvl.None? && d.lvl.None? ==> g.value.lvl == 225)
      && (c.breedable.Some? ==> g.value.breedable == c.breedable.value)
      && (c.breedable.None? && d.breedable.Some? ==> g.value.breedable == d.breedable.value)
      && (c.breedable.None? && d.breedable.None? ==> g.value.breedable)
      && (!FalsyString(c.eosId) ==> g.value.eosId == c.eosId.value)
      && (FalsyString(c.eosId) && !FalsyString(eosId) ==> g.value.eosId == eosId.value)
      && (FalsyString(c.eosId) && FalsyString(eosId) ==> g.value.eosId == "")
  {
    SpawnDinoRoundTrip(ResolveEosId(c.eosId, eosId), c.ref,
      Cascade(c.lvl, d.lvl, DefaultLevel), Cascade(c.breedable, d.breedable, DefaultBreedable));
  }

  // ---------------------------------------------------------------------------
  // The creature call as the source spells it
  // ---------------------------------------------------------------------------

  /** The per-component step as written: the creature builder is called with a
      keyword its signature does not declare, so every creature component raises. */
  function ComponentCommandAsWritten(c: KitComponent, playerId: Option<int>, eosId: Option<string>, d: KitDefaults): Result<string, KitError> {
    if c.kind == "dino" then Failure(DinoCallTypeError) else ComponentCommand(c, playerId, eosId, d)
  }

  function KitCommandsAsWritten(cs: seq<KitComponent>, playerId: Option<int>, eosId: Option<string>, d: KitDefaults): (r: Result<seq<string>, KitError>)
    ensures r.Success? <==> forall i :: 0 <= i < |cs| ==> cs[i].kind == "item"
  {
    BuildAll(cs, c => ComponentCommandAsWritten(c, playerId, eosId, d))
  }

  /** As written, any kit holding a creature component fails, although every
      component has a known kind and the corrected expansion succeeds. */
  lemma DinoKitFailsAsWritten(cs: seq<KitComponent>, k: nat, playerId: Option<int>, eosId: Option<string>, d: KitDefaults)
    requires k < |cs| && cs[k].kind == "dino"
    requires forall i :: 0 <= i < |cs| ==> KnownKind(cs[i].kind)
    ensures KitCommandsAsWritten(cs, playerId, eosId, d).Failure?
    ensures KitCommands(cs, playerId, eosId, d).Success?
    ensures KitCommands(cs, playerId, eosId, d).value[k]
         == SpawnDinoCommand(ResolveEosId(cs[k].eosId, eosId), cs[k].ref,
              Cascade(cs[k].lvl, d.lvl, DefaultLevel), Cascade(cs[k].breedable, d.breedable, DefaultBreedable))
  {
  }
}

=== FILE: db.dfy ===
/** The catalog store behind the shop: three tables (categories, the item
    library, the shop's own items) held as sequences of rows, with the queries
    of `db.py` as pure functions from a store to a new store or to a result.
    Each table draws ids from its own counter, as a serial column does. */
module Db {
  import opened Results
  import opened Text

  // ---------------------------------------------------------------------------
  // Rows and the store
  // ---------------------------------------------------------------------------

  datatype Category = Category(id: nat, name: string)

  /** A row of `shop_item_library`; `blueprintPath` is None for SQL NULL. */
  datatype LibraryItem = LibraryItem(id: nat, categoryId: nat, name: string, blueprintPath: Option<string>)

  datatype ItemKind = Single | Kit

  /** A row of `shop_item`. */
  datatype ShopItem = ShopItem(
    id: nat,
    libraryId: nat,
    categoryId: nat,
    name: string,
    blueprintPath: Option<string>,
    price: int,
    quantity: int,
    quality: Option<int>,
    isBlueprint: bool,
    buyLimit: Option<int>,
    kind: ItemKind,
    kitId: Option<nat>,
    active: bool)

  /** The `(id, name)` pair a listing query selects. */
  datatype Choice = Choice(id: nat, name: string)

  datatype Store = Store(
    categories: seq<Category>,
    library: seq<LibraryItem>,
    shopItems: seq<ShopItem>,
    nextCategoryId: nat,
    nextLibraryId: nat,
    nextShopItemId: nat)

  /** The result of an upsert: the new store and the id of the row written. */
  datatype Upserted = Upserted(store: Store, id: nat)

  const EmptyStore: Store := Store([], [], [], 1, 1, 1)

  /** Category ids are unique and below the counter; names are unique (the
      `name` unique key) and stored stripped. */
  predicate CategoriesValid(cs: seq<Category>, next: nat) {
    && (forall i :: 0 <= i < |cs| ==> cs[i].id < next && Trimmed(cs[i].name))
    && (forall i, j :: 0 <= i < j < |cs| ==> cs[i].id != cs[j].id && cs[i].name != cs[j].name)
  }

  /** Library ids are unique and below the counter; `(category_id, name)` is
      unique and names are stored stripped. */
  predicate LibraryValid(lib: seq<LibraryItem>, next: nat) {
    && (forall i :: 0 <= i < |lib| ==> lib[i].id < next && Trimmed(lib[i].name))
    && (forall i, j :: 0 <= i < j < |lib| ==>
          lib[i].id != lib[j].id && (lib[i].categoryId, lib[i].name) != (lib[j].categoryId, lib[j].name))
  }

  predicate ShopItemsValid(items: seq<ShopItem>, next: nat) {
    && (forall i :: 0 <= i < |items| ==> items[i].id < next)
    && (forall i, j :: 0 <= i < j < |items| ==> items[i].id != items[j].id)
  }

  predicate Valid(st: Store) {
    && CategoriesValid(st.categories, st.nextCategoryId)
    && LibraryValid(st.library, st.nextLibraryId)
    && ShopItemsValid(st.shopItems, st.nextShopItemId)
  }

  lemma EmptyStoreValid()
    ensures Valid(EmptyStore)
  {
  }

  // ---------------------------------------------------------------------------
  // upsert_category
  // ---------------------------------------------------------------------------

  predicate HasCategoryName(cs: seq<Category>, key: string) {
    exists i :: 0 <= i < |cs| && cs[i].name == key
  }

  /** Where the first category named `key` sits, if any. */
  function CategoryIndex(cs: seq<Category>, key: string): (r: Option<nat>)
    ensures r.Some? ==> r.value < |cs| && cs[r.value].name == key
    ensures r.Some? ==> forall k :: 0 <= k < r.value ==> cs[k].name != key
    ensures r.None? <==> !HasCategoryName(cs, key)
    decreases |cs|
  {
    if |cs| == 0 then None
    else if cs[0].name == key then Some(0)
    else
      assert forall k :: 1 <= k < |cs| ==> cs[k] == cs[1..][k - 1];
      match CategoryIndex(cs[1..], key)
      case None => None
      case Some(k) => Some(k + 1)
  }

  /** Pins down CategoryIndex from a known first match. */
  lemma CategoryIndexAt(cs: seq<Category>, key: string, i: nat)
    requires i < |cs| && cs[i].name == key
    requires forall k :: 0 <= k < i ==> cs[k].name != key
    ensures CategoryIndex(cs, key) == Some(i)
  {
    assert HasCategoryName(cs, key);
  }

  /** `upsert_category`: the key is the stripped name. An existing category is
      returned as it is (the update rewrites the same name); otherwise a new row
      takes the next id. Nothing outside the category table changes. */
  function UpsertCategory(st: Store, name: string): (r: Upserted)
    ensures Category(r.id, Strip(name)) in r.store.categories
    ensures r.store.library == st.library && r.store.shopItems == st.shopItems
    ensures HasCategoryName(st.categories, Strip(name)) ==> r.store == st
    ensures !HasCategoryName(st.categories, Strip(name)) ==>
      r.id == st.nextCategoryId && r.store.categories == st.categories + [Category(r.id, Strip(name))]
    ensures !HasCategoryName(st.categories, Strip(name)) ==> r.store.nextCategoryId == r.id + 1
  {
    var key := Strip(name);
    match CategoryIndex(st.categories, key)
    case Some(i) =>
      assert st.categories[i] == Category(st.categories[i].id, key);
      Upserted(st, st.categories[i].id)
    case None =>
      var r := AppendCategory(st, key);
      assert r.store.categories[|st.categories|] == Category(r.id, key);
      r
  }

  /** The insert branch: one new category at the end with the next id. */
  function AppendCategory(st: Store, key: string): (r: Upserted)
    ensures r.id == st.nextCategoryId
    ensures r.store.categories == st.categories + [Category(r.id, key)]
    ensures r.store.library == st.library && r.store.shopItems == st.shopItems
    ensures r.store.nextCategoryId == r.id + 1 && r.store.nextLibraryId == st.nextLibraryId
    ensures r.store.nextShopItemId == st.nextShopItemId
  {
    var id := st.nextCategoryId;
    Upserted(st.(categories := st.categories + [Category(id, key)], nextCategoryId := id + 1), id)
  }

  /** The upsert keeps ids unique and below the counter, and names unique and
      stripped. */
  lemma UpsertCategoryKeepsValid(st: Store, name: string)
    requires Valid(st)
    ensures Valid(UpsertCategory(st, name).store)
  {
    var key := Strip(name);
    var r := UpsertCategory(st, name);
    if !HasCategoryName(st.categories, key) {
      var cs := r.store.categories;
      var n := |st.categories|;
      forall i, j | 0 <= i < j < |cs| ensures cs[i].id != cs[j].id && cs[i].name != cs[j].name {
        if j == n {
          assert cs[i] == st.categories[i];
        } else {
          assert cs[i] == st.categories[i] && cs[j] == st.categories[j];
        }
      }
      forall i | 0 <= i < |cs| ensures cs[i].id < r.store.nextCategoryId && Trimmed(cs[i].name) {
        if i < n {
          assert cs[i] == st.categories[i];
        }
      }
    }
  }

  /** Upserting a name that strips to the same key again returns the same id and
      leaves the store as it was. */
  lemma UpsertCategoryIdempotent(st: Store, a: string, b: string)
    requires Strip(a) == Strip(b)
    ensures UpsertCategory(UpsertCategory(st, a).store, b) == UpsertCategory(st, a)
  {
    var key := Strip(a);
    var r1 := UpsertCategory(st, a);
    if !HasCategoryName(st.categories, key) {
      var cs := r1.store.categories;
      var n := |st.categories|;
      forall k | 0 <= k < n ensures cs[k].name != key {
        assert cs[k] == st.categories[k];
      }
      CategoryIndexAt(cs, key, n);
    }
  }

  // ---------------------------------------------------------------------------
  // upsert_library_item
  // ---------------------------------------------------------------------------

  predicate KeyIs(row: LibraryItem, categoryId: int, key: string) {
    row.categoryId == categoryId && row.name == key
  }

  predicate HasLibraryKey(lib: seq<LibraryItem>, categoryId: int, key: string) {
    exists i :: 0 <= i < |lib| && KeyIs(lib[i], categoryId, key)
  }

  /** Where the first row with key `(categoryId, key)` sits, if any. */
  function LibraryIndex(lib: seq<LibraryItem>, categoryId: int, key: string): (r: Option<nat>)
    ensures r.Some? ==> r.value < |lib| && KeyIs(lib[r.value], categoryId, key)
    ensures r.Some? ==> forall k :: 0 <= k < r.value ==> !KeyIs(lib[k], categoryId, key)
    ensures r.None? <==> !HasLibraryKey(lib, categoryId, key)
    decreases |lib|
  {
    if |lib| == 0 then None
    else if KeyIs(lib[0], categoryId, key) then Some(0)
    else
      assert forall k :: 1 <= k < |lib| ==> lib[k] == lib[1..][k - 1];
      match LibraryIndex(lib[1..], categoryId, key)
      case None => None
      case Some(k) => Some(k + 1)
  }

  /** Pins down LibraryIndex from a known first match. */
  lemma LibraryIndexAt(lib: seq<LibraryItem>, categoryId: int, key: string, i: nat)
    requires i < |lib| && KeyIs(lib[i], categoryId, key)
    requires forall k :: 0 <= k < i ==> !KeyIs(lib[k], categoryId, key)
    ensures LibraryIndex(lib, categoryId, key) == Some(i)
  {
    assert HasLibraryKey(lib, categoryId, key);
  }

  /** `upsert_library_item`: the key is `(category_id, stripped name)`. On a
      conflict the existing row keeps its id, category and name and only its
      blueprint path is overwritten; otherwise a new row takes the next id.
      Every row with another key is unchanged, and nothing outside the
      library table changes. */
  function UpsertLibraryItem(st: Store, categoryId: nat, name: string, blueprintPath: Option<string>): (r: Upserted)
    ensures LibraryItem(r.id, categoryId, Strip(name), blueprintPath) in r.store.library
    ensures r.store.categories == st.categories && r.store.shopItems == st.shopItems
    ensures |r.store.library| == |st.library| + (if HasLibraryKey(st.library, categoryId, Strip(name)) then 0 else 1)
    ensures forall j :: 0 <= j < |st.library| ==>
      r.store.library[j].id == st.library[j].id && KeyIs(r.store.library[j], st.library[j].categoryId, st.library[j].name)
    ensures forall j :: 0 <= j < |st.library| && !KeyIs(st.library[j], categoryId, Strip(name)) ==>
      r.store.library[j] == st.library[j]
    ensures HasLibraryKey(st.library, categoryId, Strip(name)) ==> r.store.nextLibraryId == st.nextLibraryId
    ensures !HasLibraryKey(st.library, categoryId, Strip(name)) ==> r.id == st.nextLibraryId
  {
    var key := Strip(name);
    match LibraryIndex(st.library, categoryId, key)
    case Some(i) =>
      var out := OverwriteBlueprint(st, i, blueprintPath);
      assert out.library[i] == LibraryItem(st.library[i].id, categoryId, key, blueprintPath);
      Upserted(out, st.library[i].id)
    case None =>
      var r := AppendLibraryRow(st, categoryId, key, blueprintPath);
      assert r.store.library[|st.library|] == LibraryItem(r.id, categoryId, key, blueprintPath);
      r
  }

  /** The conflict branch: row `i` gets the new blueprint path, nothing else moves. */
  function OverwriteBlueprint(st: Store, i: nat, blueprintPath: Option<string>): (r: Store)
    requires i < |st.library|
    ensures r.library == st.library[i := st.library[i].(blueprintPath := blueprintPath)]
    ensures |r.library| == |st.library|
    ensures forall j :: 0 <= j < |st.library| ==>
      r.library[j].id == st.library[j].id && KeyIs(r.library[j], st.library[j].categoryId, st.library[j].name)
    ensures forall j :: 0 <= j < |st.library| && j != i ==> r.library[j] == st.library[j]
    ensures r.categories == st.categories && r.shopItems == st.shopItems && r.nextLibraryId == st.nextLibraryId
  {
    st.(library := st.library[i := st.library[i].(blueprintPath := blueprintPath)])
  }

  /** The insert branch: one new row at the end with the next id. */
  function AppendLibraryRow(st: Store, categoryId: nat, key: string, blueprintPath: Option<string>): (r: Upserted)
    ensures r.id == st.nextLibraryId
    ensures r.store.library == st.library + [LibraryItem(r.id, categoryId, key, blueprintPath)]
    ensures |r.store.library| == |st.library| + 1
    ensures forall j :: 0 <= j < |st.library| ==> r.store.library[j] == st.library[j]
    ensures r.store.categories == st.categories && r.store.shopItems == st.shopItems
    ensures r.store.nextLibraryId == r.id + 1
  {
    var id := st.nextLibraryId;
    Upserted(st.(library := st.library + [LibraryItem(id, categoryId, key, blueprintPath)], nextLibraryId := id + 1), id)
  }

  /** The upsert keeps ids unique and below the counter, and keys unique and
      stripped. */
  lemma UpsertLibraryItemKeepsValid(st: Store, categoryId: nat, name: string, bp: Option<string>)
    requires Valid(st)
    ensures Valid(UpsertLibraryItem(st, categoryId, name, bp).store)
  {
    var key := Strip(name);
    match LibraryIndex(st.library, categoryId, key)
    case Some(i) =>
      SetBlueprintKeepsValid(st.library, st.nextLibraryId, i, bp);
    case None =>
      AppendRowKeepsValid(st.library, st.nextLibraryId, LibraryItem(st.nextLibraryId, categoryId, key, bp));
  }

  /** A row with a fresh id and a new stripped key can be appended. */
  lemma AppendRowKeepsValid(lib: seq<LibraryItem>, next: nat, row: LibraryItem)
    requires LibraryValid(lib, next) && row.id == next && Trimmed(row.name)
    requires !HasLibraryKey(lib, row.categoryId, row.name)
    ensures LibraryValid(lib + [row], next + 1)
  {
    var lib' := lib + [row];
    forall i, j | 0 <= i < j < |lib'|
      ensures lib'[i].id != lib'[j].id && (lib'[i].categoryId, lib'[i].name) != (lib'[j].categoryId, lib'[j].name)
    {
      assert lib'[i] == lib[i];
      if j == |lib| {
        assert !KeyIs(lib[i], row.categoryId, row.name);
      } else {
        assert lib'[j] == lib[j];
      }
    }
  }

  /** Overwriting a blueprint path touches neither ids nor keys. */
  lemma SetBlueprintKeepsValid(lib: seq<LibraryItem>, next: nat, i: nat, bp: Option<string>)
    requires i < |lib|
    ensures LibraryValid(lib, next) ==> LibraryValid(lib[i := lib[i].(blueprintPath := bp)], next)
  {
    var lib' := lib[i := lib[i].(blueprintPath := bp)];
    assert forall k :: 0 <= k < |lib| ==> lib'[k].id == lib[k].id && lib'[k].categoryId == lib[k].categoryId && lib'[k].name == lib[k].name;
  }

  /** A second upsert with the same key keeps the id and the row count, and with
      the same blueprint path it changes nothing at all. */
  lemma UpsertLibraryItemRepeat(st: Store, categoryId: nat, a: string, b: string, bp1: Option<string>, bp2: Option<string>)
    requires Strip(a) == Strip(b)
    ensures var r1 := UpsertLibraryItem(st, categoryId, a, bp1);
      var r2 := UpsertLibraryItem(r1.store, categoryId, b, bp2);
      r2.id == r1.id && |r2.store.library| == |r1.store.library| && (bp1 == bp2 ==> r2.store == r1.store)
  {
    var key := Strip(a);
    var r1 := UpsertLibraryItem(st, categoryId, a, bp1);
    var i := UpsertedIndex(st, categoryId, a, bp1);
    var lib := r1.store.library;
    LibraryIndexAt(lib, categoryId, key, i);
    var r2 := UpsertLibraryItem(r1.store, categoryId, b, bp2);
    assert r2 == Upserted(OverwriteBlueprint(r1.store, i, bp2), lib[i].id);
    if bp1 == bp2 {
      assert lib[i := lib[i].(blueprintPath := bp2)] == lib;
    }
  }

  /** Where the row an upsert wrote sits: the first row with its key. */
  lemma UpsertedIndex(st: Store, categoryId: nat, name: string, bp: Option<string>) returns (i: nat)
    ensures var r := UpsertLibraryItem(st, categoryId, name, bp);
      && i < |r.store.library| && r.store.library[i] == LibraryItem(r.id, categoryId, Strip(name), bp)
      && forall k :: 0 <= k < i ==> !KeyIs(r.store.library[k], categoryId, Strip(name))
  {
    var key := Strip(name);
    match LibraryIndex(st.library, categoryId, key)
    case Some(j) =>
      i := j;
    case None =>
      i := |st.library|;
  }

  // ---------------------------------------------------------------------------
  // create_shop_item
  // ---------------------------------------------------------------------------

  /** `create_shop_item`: always inserts exactly one row, with the given values
      and the column defaults for the rest (kind `single`, no kit, active). The
      new id is fresh, earlier rows and the other tables are unchanged. */
  function CreateShopItem(st: Store, libraryId: nat, categoryId: nat, name: string, blueprintPath: Option<string>,
                          price: int, quantity: int, quality: Option<int>, isBlueprint: bool, buyLimit: Option<int>): (r: Store)
    ensures |r.shopItems| == |st.shopItems| + 1 && r.shopItems[..|st.shopItems|] == st.shopItems
    ensures var row := r.shopItems[|st.shopItems|];
      && row.libraryId == libraryId && row.categoryId == categoryId && row.name == name
      && row.blueprintPath == blueprintPath && row.price == price && row.quantity == quantity
      && row.quality == quality && row.isBlueprint == isBlueprint && row.buyLimit == buyLimit
      && row.kind == Single && row.kitId.None? && row.active
    ensures Valid(st) ==> forall k :: 0 <= k < |st.shopItems| ==> st.shopItems[k].id != r.shopItems[|st.shopItems|].id
    ensures r.categories == st.categories && r.library == st.library
    ensures Valid(st) ==> Valid(r)
  {
    var id := st.nextShopItemId;
    var row := ShopItem(id, libraryId, categoryId, name, blueprintPath, price, quantity, quality, isBlueprint, buyLimit,
                        Single, None, true);
    st.(shopItems := st.shopItems + [row], nextShopItemId := id + 1)
  }

  /** The insert is not idempotent: the same call twice leaves two rows with
      distinct ids. */
  lemma CreateShopItemTwice(st: Store, libraryId: nat, categoryId: nat, name: string, blueprintPath: Option<string>,
                            price: int, quantity: int, quality: Option<int>, isBlueprint: bool, buyLimit: Option<int>)
    requires Valid(st)
    ensures var once := CreateShopItem(st, libraryId, categoryId, name, blueprintPath, price, quantity, quality, isBlueprint, buyLimit);
      var twice := CreateShopItem(once, libraryId, categoryId, name, blueprintPath, price, quantity, quality, isBlueprint, buyLimit);
      && |twice.shopItems| == |st.shopItems| + 2
      && twice.shopItems[|st.shopItems|].id != twice.shopItems[|st.shopItems| + 1].id
  {
    var once := CreateShopItem(st, libraryId, categoryId, name, blueprintPath, price, quantity, quality, isBlueprint, buyLimit);
    assert once.shopItems[..|st.shopItems| + 1] == once.shopItems;
  }

  // ---------------------------------------------------------------------------
  // ILIKE: SQL pattern matching with case folding
  // ---------------------------------------------------------------------------

  /** `s ILIKE p`: `%` matches any run of characters, `_` any one character,
      a backslash makes the next pattern character literal, and letters compare
      after folding to lower case. */
  predicate Like(s: string, p: string)
    decreases |s| + |p|
  {
    if |p| == 0 then |s| == 0
    else if p[0] == '%' then Like(s, p[1..]) || (|s| > 0 && Like(s[1..], p))
    else if p[0] == '_' then |s| > 0 && Like(s[1..], p[1..])
    else if p[0] == '\\' && |p| > 1 then |s| > 0 && LowerChar(s[0]) == LowerChar(p[1]) && Like(s[1..], p[2..])
    else |s| > 0 && LowerChar(s[0]) == LowerChar(p[0]) && Like(s[1..], p[1..])
  }

  /** The pattern `search_categories` builds from its query. */
  function ContainsPattern(q: string): string {
    "%" + q + "%"
  }

  /** `q` has no character that LIKE treats specially. */
  predicate Literal(q: string) {
    forall k :: 0 <= k < |q| ==> q[k] != '%' && q[k] != '_' && q[k] != '\\'
  }

  /** `a` and `b` are equal once folded to lower case. */
  predicate FoldEq(a: string, b: string) {
    |a| == |b| && forall k :: 0 <= k < |a| ==> LowerChar(a[k]) == LowerChar(b[k])
  }

  /** `q` occurs in `s` at position `i`, ignoring case. */
  predicate OccursAt(s: string, q: string, i: int) {
    0 <= i && i + |q| <= |s| && FoldEq(s[i..i + |q|], q)
  }

  /** `q` occurs in `s`, ignoring case. */
  predicate ContainsFolded(s: string, q: string) {
    exists i :: 0 <= i <= |s| && OccursAt(s, q, i)
  }

  lemma {:induction false} LikeAnything(s: string)
    ensures Like(s, "%")
    decreases |s|
  {
    assert "%"[1..] == "";
    if |s| > 0 {
      LikeAnything(s[1..]);
    }
  }

  /** A literal followed by `%` matches exactly the strings it starts. */
  lemma {:induction false} LikePrefix(s: string, q: string)
    requires Literal(q)
    ensures Like(s, q + "%") <==> |q| <= |s| && FoldEq(s[..|q|], q)
    decreases |q|
  {
    if |q| == 0 {
      assert q + "%" == "%";
      LikeAnything(s);
    } else {
      var p := q + "%";
      assert p[0] == q[0] && p[1..] == q[1..] + "%";
      assert Literal(q[1..]) by {
        forall k | 0 <= k < |q| - 1 ensures q[1..][k] != '%' && q[1..][k] != '_' && q[1..][k] != '\\' {
          assert q[1..][k] == q[k + 1];
        }
      }
      if |s| > 0 {
        LikePrefix(s[1..], q[1..]);
        if |q| <= |s| {
          assert FoldEq(s[..|q|], q) <==> LowerChar(s[0]) == LowerChar(q[0]) && FoldEq(s[1..][..|q| - 1], q[1..]) by {
            if FoldEq(s[..|q|], q) {
              forall k | 0 <= k < |q| - 1 ensures LowerChar(s[1..][..|q| - 1][k]) == LowerChar(q[1..][k]) {
                assert s[1..][..|q| - 1][k] == s[..|q|][k + 1];
              }
            }
            if LowerChar(s[0]) == LowerChar(q[0]) && FoldEq(s[1..][..|q| - 1], q[1..]) {
              forall k | 0 <= k < |q| ensures LowerChar(s[..|q|][k]) == LowerChar(q[k]) {
                if k > 0 {
                  assert s[..|q|][k] == s[1..][..|q| - 1][k - 1];
                }
              }
            }
          }
        }
      }
    }
  }

  /** A leading `%` tries every suffix. */
  lemma {:induction false} LikeSearch(s: string, r: string)
    ensures Like(s, "%" + r) <==> exists i :: 0 <= i <= |s| && Like(s[i..], r)
    decreases |s|
  {
    var p := "%" + r;
    assert p[0] == '%' && p[1..] == r;
    assert s[0..] == s;
    if |s| > 0 {
      LikeSearch(s[1..], r);
      if Like(s[1..], p) {
        var i :| 0 <= i <= |s| - 1 && Like(s[1..][i..], r);
        assert s[1..][i..] == s[i + 1..];
      }
      if exists i :: 0 <= i <= |s| && Like(s[i..], r) {
        var i :| 0 <= i <= |s| && Like(s[i..], r);
        if i > 0 {
          assert s[1..][i - 1..] == s[i..];
        }
      }
    }
  }

  /** For a query without wildcards, `name ILIKE '%q%'` holds exactly when the
      name contains the query, ignoring case. */
  lemma SearchPatternContains(s: string, q: string)
    requires Literal(q)
    ensures Like(s, ContainsPattern(q)) <==> ContainsFolded(s, q)
  {
    assert ContainsPattern(q) == "%" + (q + "%");
    LikeSearch(s, q + "%");
    if Like(s, ContainsPattern(q)) {
      var i :| 0 <= i <= |s| && Like(s[i..], q + "%");
      LikePrefix(s[i..], q);
      assert s[i..][..|q|] == s[i..i + |q|];
      assert OccursAt(s, q, i);
    }
    if ContainsFolded(s, q) {
      var i :| 0 <= i <= |s| && OccursAt(s, q, i);
      LikePrefix(s[i..], q);
      assert s[i..][..|q|] == s[i..i + |q|];
    }
  }

  /** The empty query matches every name. */
  lemma EmptyQueryMatchesAll(s: string)
    ensures Like(s, ContainsPattern(""))
  {
    assert ContainsPattern("") == "%" + "%";
    assert ("%" + "%")[1..] == "%";
    LikeAnything(s);
  }

  // ---------------------------------------------------------------------------
  // order by name, limit, offset
  // ---------------------------------------------------------------------------

  predicate SortedByName(cs: seq<Choice>) {
    forall i, j :: 0 <= i < j < |cs| ==> LexLe(cs[i].name, cs[j].name)
  }

  /** Inserts `x` before the first element that does not sort before it. */
  function InsertByName(x: Choice, cs: seq<Choice>): (r: seq<Choice>)
    requires SortedByName(cs)
    ensures SortedByName(r)
    ensures multiset(r) == multiset(cs) + multiset{x}
    decreases |cs|
  {
    if |cs| == 0 then [x]
    else if LexLe(x.name, cs[0].name) then
      BelowHead(x, cs);
      ConsSorted(x, cs);
      [x] + cs
    else
      var rest := InsertByName(x, cs[1..]);
      HeadBelowInsert(x, cs, rest);
      ConsSorted(cs[0], rest);
      assert cs == [cs[0]] + cs[1..];
      [cs[0]] + rest
  }

  /** Putting an element that sorts before every other in front keeps the order. */
  lemma ConsSorted(y: Choice, rest: seq<Choice>)
    requires SortedByName(rest)
    requires forall j :: 0 <= j < |rest| ==> LexLe(y.name, rest[j].name)
    ensures SortedByName([y] + rest)
  {
    forall i, j | 0 <= i < j < |rest| + 1 ensures LexLe(([y] + rest)[i].name, ([y] + rest)[j].name) {
      if i > 0 {
        assert ([y] + rest)[i] == rest[i - 1];
      }
      assert ([y] + rest)[j] == rest[j - 1];
    }
  }

  /** What sorts no later than the head of a sorted list sorts no later than all of it. */
  lemma BelowHead(x: Choice, cs: seq<Choice>)
    requires SortedByName(cs) && |cs| > 0 && LexLe(x.name, cs[0].name)
    ensures forall j :: 0 <= j < |cs| ==> LexLe(x.name, cs[j].name)
  {
    forall j | 0 <= j < |cs| ensures LexLe(x.name, cs[j].name) {
      if j > 0 {
        LexLeTransitive(x.name, cs[0].name, cs[j].name);
      }
    }
  }

  /** When `x` goes after the head, the head sorts no later than anything in the
      insertion into the tail. */
  lemma HeadBelowInsert(x: Choice, cs: seq<Choice>, rest: seq<Choice>)
    requires SortedByName(cs) && |cs| > 0 && !LexLe(x.name, cs[0].name)
    requires multiset(rest) == multiset(cs[1..]) + multiset{x}
    ensures forall j :: 0 <= j < |rest| ==> LexLe(cs[0].name, rest[j].name)
  {
    LexLeTotal(x.name, cs[0].name);
    forall j | 0 <= j < |rest| ensures LexLe(cs[0].name, rest[j].name) {
      assert rest[j] in multiset(rest);
      if rest[j] != x {
        assert rest[j] in multiset(cs[1..]);
        var k :| 0 <= k < |cs[1..]| && cs[1..][k] == rest[j];
        assert cs[k + 1] == rest[j];
      }
    }
  }

  /** The rows in name order (insertion sort). */
  function SortByName(cs: seq<Choice>): (r: seq<Choice>)
    ensures SortedByName(r)
    ensures multiset(r) == multiset(cs)
    decreases |cs|
  {
    if |cs| == 0 then []
    else
      assert cs == [cs[0]] + cs[1..];
      InsertByName(cs[0], SortByName(cs[1..]))
  }

  function Min(a: int, b: int): int {
    if a < b then a else b
  }

  function Max(a: int, b: int): int {
    if a < b then b else a
  }

  /** `LIMIT limit OFFSET offset`: skip `offset` rows, keep at most `limit`. */
  function Window<T>(s: seq<T>, offset: nat, limit: nat): (r: seq<T>)
    ensures |r| <= limit
    ensures offset >= |s| ==> r == []
    ensures offset < |s| ==> |r| == if |s| - offset < limit then |s| - offset else limit
    ensures forall k :: 0 <= k < |r| ==> r[k] == s[offset + k]
  {
    if offset >= |s| then []
    else if |s| - offset < limit then s[offset..]
    else s[offset..offset + limit]
  }

  /** A page of a sorted listing is sorted. */
  lemma WindowSorted(s: seq<Choice>, offset: nat, limit: nat)
    requires SortedByName(s)
    ensures SortedByName(Window(s, offset, limit))
  {
    var w := Window(s, offset, limit);
    forall i, j | 0 <= i < j < |w| ensures LexLe(w[i].name, w[j].name) {
      assert w[i] == s[offset + i] && w[j] == s[offset + j];
    }
  }

  /** Consecutive windows concatenate: the rows of two adjacent pages are the
      rows of one page twice as long. */
  lemma WindowsConcat<T>(s: seq<T>, offset: nat, a: nat, b: nat)
    ensures Window(s, offset, a) + Window(s, offset + a, b) == Window(s, offset, a + b)
  {
  }

  /** Row `i` of the ordered result is on page `i / limit`, at position `i % limit`. */
  lemma RowOnPage<T>(s: seq<T>, i: nat, limit: nat) returns (page: nat)
    requires i < |s| && 0 < limit
    ensures page == i / limit
    ensures s[i] in Window(s, page * limit, limit)
  {
    page := i / limit;
    assert page * limit + i % limit == i;
    var w := Window(s, page * limit, limit);
    assert w[i % limit] == s[i];
  }

  // ---------------------------------------------------------------------------
  // search_categories
  // ---------------------------------------------------------------------------

  /** No row is listed twice. */
  predicate NoRepeats(r: seq<Choice>) {
    forall i, j :: 0 <= i < j < |r| ==> r[i] != r[j]
  }

  predicate UniqueCategoryIds(cs: seq<Category>) {
    forall i, j :: 0 <= i < j < |cs| ==> cs[i].id != cs[j].id
  }

  /** The categories whose name matches the pattern, in table order, each
      once when the ids are unique (as in a valid store). */
  function MatchingCategories(cs: seq<Category>, pattern: string): (r: seq<Choice>)
    ensures forall x :: x in r <==> exists i :: 0 <= i < |cs| && Like(cs[i].name, pattern) && x == Choice(cs[i].id, cs[i].name)
    ensures UniqueCategoryIds(cs) ==> NoRepeats(r)
    decreases |cs|
  {
    if |cs| == 0 then []
    else
      var rest := MatchingCategories(cs[1..], pattern);
      assert forall i :: 1 <= i < |cs| ==> cs[i] == cs[1..][i - 1];
      if Like(cs[0].name, pattern) then
        var x := Choice(cs[0].id, cs[0].name);
        assert UniqueCategoryIds(cs) ==> x !in rest;
        ConsNoRepeats(x, rest);
        [x] + rest
      else rest
  }

  /** Putting a row that is not already listed in front keeps the rows distinct. */
  lemma ConsNoRepeats(x: Choice, rest: seq<Choice>)
    ensures NoRepeats(rest) && x !in rest ==> NoRepeats([x] + rest)
  {
    if NoRepeats(rest) && x !in rest {
      forall i, j | 0 <= i < j < |rest| + 1 ensures ([x] + rest)[i] != ([x] + rest)[j] {
        assert ([x] + rest)[j] == rest[j - 1];
        if i > 0 {
          assert ([x] + rest)[i] == rest[i - 1];
        }
      }
    }
  }

  /** `search_categories`: the categories whose name contains `q` under ILIKE,
      in name order, at most `limit` of them. */
  function SearchCategories(st: Store, q: string, limit: nat): (r: seq<Choice>)
    ensures |r| == Min(|MatchingCategories(st.categories, ContainsPattern(q))|, limit)
    ensures forall k :: 0 <= k < |r| ==> r[k] == SortByName(MatchingCategories(st.categories, ContainsPattern(q)))[k]
    ensures SortedByName(r)
    ensures forall k :: 0 <= k < |r| ==> Category(r[k].id, r[k].name) in st.categories && Like(r[k].name, ContainsPattern(q))
  {
    var all := SortByName(MatchingCategories(st.categories, ContainsPattern(q)));
    assert |all| == |multiset(all)|;
    var r := Window(all, 0, limit);
    forall k | 0 <= k < |r| ensures Category(r[k].id, r[k].name) in st.categories && Like(r[k].name, ContainsPattern(q)) {
      assert r[k] in multiset(all);
      assert r[k] in MatchingCategories(st.categories, ContainsPattern(q));
      var i :| 0 <= i < |st.categories| && Like(st.categories[i].name, ContainsPattern(q))
        && r[k] == Choice(st.categories[i].id, st.categories[i].name);
      assert st.categories[i] == Category(r[k].id, r[k].name);
    }
    r
  }

  /** Nothing is lost below the limit: when at most `limit` categories match,
      every matching category is listed. */
  lemma SearchComplete(st: Store, q: string, limit: nat, c: Category)
    requires c in st.categories && Like(c.name, ContainsPattern(q))
    requires |MatchingCategories(st.categories, ContainsPattern(q))| <= limit
    ensures Choice(c.id, c.name) in SearchCategories(st, q, limit)
  {
    var matching := MatchingCategories(st.categories, ContainsPattern(q));
    var all := SortByName(matching);
    var i :| 0 <= i < |st.categories| && st.categories[i] == c;
    assert Choice(c.id, c.name) in matching;
    assert Choice(c.id, c.name) in multiset(all);
    assert Window(all, 0, limit) == all;
  }

  /** What the limit cuts off sorts no earlier than anything listed. */
  lemma SearchKeepsFirst(st: Store, q: string, limit: nat, c: Category)
    requires c in st.categories && Like(c.name, ContainsPattern(q))
    requires Choice(c.id, c.name) !in SearchCategories(st, q, limit)
    ensures forall x :: x in SearchCategories(st, q, limit) ==> LexLe(x.name, c.name)
  {
    var matching := MatchingCategories(st.categories, ContainsPattern(q));
    var all := SortByName(matching);
    var r := SearchCategories(st, q, limit);
    var i :| 0 <= i < |st.categories| && st.categories[i] == c;
    assert Choice(c.id, c.name) in matching;
    assert Choice(c.id, c.name) in multiset(all);
    var j :| 0 <= j < |all| && all[j] == Choice(c.id, c.name);
    assert |r| <= j;
    forall x | x in r ensures LexLe(x.name, c.name) {
      var k :| 0 <= k < |r| && r[k] == x;
      assert all[k] == x;
    }
  }

  /** `start` searches with the empty query: with no more categories than the
      limit, every category is offered. */
  lemma EmptySearchListsAll(st: Store, limit: nat, c: Category)
    requires c in st.categories && |st.categories| <= limit
    ensures Choice(c.id, c.name) in SearchCategories(st, "", limit)
  {
    EmptyQueryMatchesAll(c.name);
    MatchingCategoriesLength(st.categories, ContainsPattern(""));
    SearchComplete(st, "", limit, c);
  }

  lemma {:induction false} MatchingCategoriesLength(cs: seq<Category>, pattern: string)
    ensures |MatchingCategories(cs, pattern)| <= |cs|
    decreases |cs|
  {
    if |cs| > 0 {
      MatchingCategoriesLength(cs[1..], pattern);
    }
  }

  /** The empty query matches every category, so it keeps all of them. */
  lemma {:induction false} EmptyQueryKeepsAll(cs: seq<Category>)
    ensures |MatchingCategories(cs, ContainsPattern(""))| == |cs|
    decreases |cs|
  {
    if |cs| > 0 {
      EmptyQueryMatchesAll(cs[0].name);
      EmptyQueryKeepsAll(cs[1..]);
    }
  }

  // ---------------------------------------------------------------------------
  // list_items_by_category
  // ---------------------------------------------------------------------------

  predicate UniqueLibraryIds(lib: seq<LibraryItem>) {
    forall i, j :: 0 <= i < j < |lib| ==> lib[i].id != lib[j].id
  }

  /** The library rows of one category, in table order, each once when the ids
      are unique (as in a valid store). */
  function CategoryItems(lib: seq<LibraryItem>, categoryId: int): (r: seq<Choice>)
    ensures forall x :: x in r <==> exists i :: 0 <= i < |lib| && lib[i].categoryId == categoryId && x == Choice(lib[i].id, lib[i].name)
    ensures UniqueLibraryIds(lib) ==> NoRepeats(r)
    decreases |lib|
  {
    if |lib| == 0 then []
    else
      var rest := CategoryItems(lib[1..], categoryId);
      assert forall i :: 1 <= i < |lib| ==> lib[i] == lib[1..][i - 1];
      if lib[0].categoryId == categoryId then
        var x := Choice(lib[0].id, lib[0].name);
        assert UniqueLibraryIds(lib) ==> x !in rest;
        ConsNoRepeats(x, rest);
        [x] + rest
      else rest
  }

  /** Every row of the category, in name order: the listing before paging. */
  function ItemsInOrder(st: Store, categoryId: int): (r: seq<Choice>)
    ensures SortedByName(r)
    ensures multiset(r) == multiset(CategoryItems(st.library, categoryId))
  {
    SortByName(CategoryItems(st.library, categoryId))
  }

  /** `list_items_by_category`: only rows of the category, in name order,
      skipping `offset` and keeping at most `limit`. */
  function ListItemsByCategory(st: Store, categoryId: int, limit: nat, offset: nat): (r: seq<Choice>)
    ensures |r| == Min(Max(|CategoryItems(st.library, categoryId)| - offset, 0), limit)
    ensures forall k :: 0 <= k < |r| ==> r[k] == ItemsInOrder(st, categoryId)[offset + k]
    ensures SortedByName(r)
    ensures forall k :: 0 <= k < |r| ==> InCategory(st, categoryId, r[k])
  {
    var all := ItemsInOrder(st, categoryId);
    ItemsInOrderLength(st, categoryId);
    WindowSorted(all, offset, limit);
    WindowInCategory(st, categoryId, offset, limit);
    Window(all, offset, limit)
  }

  /** Sorting keeps the number of rows. */
  lemma ItemsInOrderLength(st: Store, categoryId: int)
    ensures |ItemsInOrder(st, categoryId)| == |CategoryItems(st.library, categoryId)|
  {
    assert |ItemsInOrder(st, categoryId)| == |multiset(ItemsInOrder(st, categoryId))|;
  }

  /** Every row of a page of the ordered listing is a row of the category. */
  lemma WindowInCategory(st: Store, categoryId: int, offset: nat, limit: nat)
    ensures forall k :: 0 <= k < |Window(ItemsInOrder(st, categoryId), offset, limit)| ==>
      InCategory(st, categoryId, Window(ItemsInOrder(st, categoryId), offset, limit)[k])
  {
    var all := ItemsInOrder(st, categoryId);
    var r := Window(all, offset, limit);
    forall k | 0 <= k < |r| ensures InCategory(st, categoryId, r[k]) {
      assert r[k] == all[offset + k];
      InOrderFromCategory(st, categoryId, r[k]);
    }
  }

  /** Adjacent pages of the listing concatenate into one longer page: paging
      neither skips nor repeats a row. */
  lemma ListPagesConcat(st: Store, categoryId: int, offset: nat, a: nat, b: nat)
    ensures ListItemsByCategory(st, categoryId, a, offset) + ListItemsByCategory(st, categoryId, b, offset + a)
         == ListItemsByCategory(st, categoryId, a + b, offset)
  {
    WindowsConcat(ItemsInOrder(st, categoryId), offset, a, b);
  }

  /** `x` names a library row of the category. */
  predicate InCategory(st: Store, categoryId: int, x: Choice) {
    exists i :: 0 <= i < |st.library| && st.library[i].categoryId == categoryId && x == Choice(st.library[i].id, st.library[i].name)
  }

  /** Sorting only reorders: whatever the ordered listing holds comes from a
      row of the category. */
  lemma InOrderFromCategory(st: Store, categoryId: int, x: Choice)
    requires x in ItemsInOrder(st, categoryId)
    ensures InCategory(st, categoryId, x)
  {
    assert x in multiset(ItemsInOrder(st, categoryId));
    assert x in CategoryItems(st.library, categoryId);
  }

  /** Every row of the category has a rank in the ordered listing. */
  lemma RankOf(st: Store, categoryId: int, row: LibraryItem) returns (i: nat)
    requires row in st.library && row.categoryId == categoryId
    ensures i < |ItemsInOrder(st, categoryId)| && ItemsInOrder(st, categoryId)[i] == Choice(row.id, row.name)
  {
    var all := ItemsInOrder(st, categoryId);
    var x := Choice(row.id, row.name);
    var j :| 0 <= j < |st.library| && st.library[j] == row;
    assert x in CategoryItems(st.library, categoryId);
    assert x in multiset(all);
    i :| 0 <= i < |all| && all[i] == x;
  }

  /** Paging reaches every row: each row of the category appears on page
      `rank / limit` of size `limit`, where `rank` is its place in name order. */
  lemma EveryItemOnSomePage(st: Store, categoryId: int, limit: nat, row: LibraryItem) returns (page: nat)
    requires row in st.library && row.categoryId == categoryId && 0 < limit
    ensures Choice(row.id, row.name) in ListItemsByCategory(st, categoryId, limit, page * limit)
  {
    var i := RankOf(st, categoryId, row);
    page := RowOnPage(ItemsInOrder(st, categoryId), i, limit);
  }

  // ---------------------------------------------------------------------------
  // find_item_library and the lookup by id
  // ---------------------------------------------------------------------------

  /** `find_item_library`: the row whose category and name equal the arguments
      exactly (the name is not stripped), or None. */
  function FindItemLibrary(st: Store, categoryId: int, name: string): (r: Option<LibraryItem>)
    ensures r.Some? ==> r.value in st.library && r.value.categoryId == categoryId && r.value.name == name
    ensures r.None? <==> forall i :: 0 <= i < |st.library| ==> !(st.library[i].categoryId == categoryId && st.library[i].name == name)
  {
    match LibraryIndex(st.library, categoryId, name)
    case Some(i) => Some(st.library[i])
    case None => None
  }

  /** After an upsert the row is found under the stripped name, carrying the id
      the upsert returned and the blueprint path it wrote. */
  lemma UpsertThenFind(st: Store, categoryId: nat, name: string, bp: Option<string>)
    ensures var r := UpsertLibraryItem(st, categoryId, name, bp);
      FindItemLibrary(r.store, categoryId, Strip(name)) == Some(LibraryItem(r.id, categoryId, Strip(name), bp))
  {
    var r := UpsertLibraryItem(st, categoryId, name, bp);
    var i := UpsertedIndex(st, categoryId, name, bp);
    LibraryIndexAt(r.store.library, categoryId, Strip(name), i);
  }

  /** Stored names are stripped, so a lookup under a name with surrounding
      whitespace finds nothing. */
  lemma FindDoesNotStrip(st: Store, categoryId: int, name: string)
    requires Valid(st) && !Trimmed(name)
    ensures FindItemLibrary(st, categoryId, name).None?
  {
  }

  /** The lookup by primary key the submit handler makes. */
  function LibraryById(st: Store, id: int): (r: Option<LibraryItem>)
    ensures r.Some? ==> r.value in st.library && r.value.id == id
    ensures r.None? <==> forall i :: 0 <= i < |st.library| ==> st.library[i].id != id
  {
    match FirstIndex(st.library, (row: LibraryItem) => row.id == id)
    case Some(i) => Some(st.library[i])
    case None => None
  }

  /** Once upserted, a library row is found by the id the upsert returned. */
  lemma UpsertThenById(st: Store, categoryId: nat, name: string, bp: Option<string>)
    requires Valid(st)
    ensures var r := UpsertLibraryItem(st, categoryId, name, bp);
      LibraryById(r.store, r.id) == Some(LibraryItem(r.id, categoryId, Strip(name), bp))
  {
    var r := UpsertLibraryItem(st, categoryId, name, bp);
    var i := UpsertedIndex(st, categoryId, name, bp);
    var lib := r.store.library;
    UpsertLibraryItemKeepsValid(st, categoryId, name, bp);
    var found := LibraryById(r.store, r.id);
    assert found.Some? by {
      assert lib[i].id == r.id;
    }
    var j :| 0 <= j < |lib| && lib[j] == found.value;
    assert j == i;
  }
}

=== FILE: discounts.dfy ===
/** Price computation: the configured discount rules are applied one after the
    other, each matching rule scaling the running price by `1 - amount/100`, and
    the result is truncated toward zero by Python's `int()`. Prices are exact
    reals here, not IEEE doubles. */
module Discounts {
  import opened Results

  /** One entry of the discount configuration: its `type` string, its `target`
      (None for a JSON null) and its `amount` in percent. */
  datatype DiscountRule = DiscountRule(kind: string, target: Option<string>, amount: real)

  function Factor(d: DiscountRule): real {
    1.0 - d.amount / 100.0
  }

  /** A `role` rule applies when its target is one of the buyer's roles. */
  predicate RoleMatches(d: DiscountRule, roles: set<string>) {
    d.kind == "role" && d.target.Some? && d.target.value in roles
  }

  /** An `event` rule applies when its target equals the current event; a null
      target therefore applies exactly when there is no current event. */
  predicate EventMatches(d: DiscountRule, event: Option<string>) {
    d.kind == "event" && d.target == event
  }

  /** One pass of the loop body: two independent tests, each of which may scale the price. */
  function Step(price: real, d: DiscountRule, roles: set<string>, event: Option<string>): real {
    var afterRole := if RoleMatches(d, roles) then price * Factor(d) else price;
    if EventMatches(d, event) then afterRole * Factor(d) else afterRole
  }

  /** The running price after every rule, in list order. */
  function Discounted(price: real, rules: seq<DiscountRule>, roles: set<string>, event: Option<string>): real
    decreases |rules|
  {
    if |rules| == 0 then price
    else Discounted(Step(price, rules[0], roles, event), rules[1..], roles, event)
  }

  /** Python's `int()` on a float: truncation toward zero. */
  function Truncate(x: real): (r: int)
    ensures 0.0 <= x ==> r as real <= x < r as real + 1.0
    ensures x < 0.0 ==> r as real - 1.0 < x <= r as real
  {
    if x >= 0.0 then x.Floor else -((-x).Floor)
  }

  /** A whole number truncates to itself. */
  lemma TruncateWhole(n: int)
    ensures Truncate(n as real) == n
  {
  }

  lemma UnitScale(p: real, m: real)
    requires m == 1.0
    ensures p * m == p
  {
  }

  // ---------------------------------------------------------------------------
  // Reference definition: the product of the matching factors
  // ---------------------------------------------------------------------------

  /** What one rule multiplies the price by: its factor when it applies, else 1. */
  function RuleMultiplier(d: DiscountRule, roles: set<string>, event: Option<string>): real {
    if RoleMatches(d, roles) || EventMatches(d, event) then Factor(d) else 1.0
  }

  /** What each rule multiplies the price by, in list order: a matching rule
      takes `amount` percent off, any other rule leaves the price alone, and a
      rule whose amount is a percentage never raises the price nor makes it
      change sign. */
  function Factors(rules: seq<DiscountRule>, roles: set<string>, event: Option<string>): (fs: seq<real>)
    ensures |fs| == |rules|
    ensures forall i :: 0 <= i < |rules| && (RoleMatches(rules[i], roles) || EventMatches(rules[i], event)) ==>
      fs[i] == 1.0 - rules[i].amount / 100.0
    ensures forall i :: 0 <= i < |rules| && !RoleMatches(rules[i], roles) && !EventMatches(rules[i], event) ==> fs[i] == 1.0
    ensures forall i :: 0 <= i < |rules| && 0.0 <= rules[i].amount <= 100.0 ==> 0.0 <= fs[i] <= 1.0
  {
    seq(|rules|, i requires 0 <= i < |rules| => RuleMultiplier(rules[i], roles, event))
  }

  function Product(fs: seq<real>): real
    decreases |fs|
  {
    if |fs| == 0 then 1.0 else fs[0] * Product(fs[1..])
  }

  /** Scaling a price by each factor in turn. */
  function Scale(price: real, fs: seq<real>): real
    decreases |fs|
  {
    if |fs| == 0 then price else Scale(price * fs[0], fs[1..])
  }

  /** The product of what every rule multiplies the price by. */
  function Multiplier(rules: seq<DiscountRule>, roles: set<string>, event: Option<string>): real {
    Product(Factors(rules, roles, event))
  }

  predicate AmountsInRange(rules: seq<DiscountRule>) {
    forall i :: 0 <= i < |rules| ==> 0.0 <= rules[i].amount <= 100.0
  }

  predicate NoneMatch(rules: seq<DiscountRule>, roles: set<string>, event: Option<string>) {
    forall i :: 0 <= i < |rules| ==> !RoleMatches(rules[i], roles) && !EventMatches(rules[i], event)
  }

  /** A rule is either a role rule or an event rule, so at most one of its tests fires. */
  lemma StepIsProduct(price: real, d: DiscountRule, roles: set<string>, event: Option<string>)
    ensures Step(price, d, roles, event) == price * RuleMultiplier(d, roles, event)
  {
    if RoleMatches(d, roles) {
      assert d.kind[0] == 'r';
      assert !EventMatches(d, event);
    }
  }

  /** The source's loop scales the price rule by rule. */
  lemma {:induction false} DiscountedIsScale(price: real, rules: seq<DiscountRule>, roles: set<string>, event: Option<string>)
    ensures Discounted(price, rules, roles, event) == Scale(price, Factors(rules, roles, event))
    decreases |rules|
  {
    if |rules| > 0 {
      var fs := Factors(rules, roles, event);
      var next := Step(price, rules[0], roles, event);
      assert fs[1..] == Factors(rules[1..], roles, event);
      StepIsProduct(price, rules[0], roles, event);
      assert next == price * fs[0];
      DiscountedIsScale(next, rules[1..], roles, event);
      ScaleFirst(price, fs, next);
    }
  }

  lemma ScaleFirst(price: real, fs: seq<real>, next: real)
    requires |fs| > 0 && next == price * fs[0]
    ensures Scale(price, fs) == Scale(next, fs[1..])
  {
  }

  /** Multiplication by the running factors associates: scaling by `a` and then
      by `b` is scaling once by their product `w`. */
  lemma Associate(p: real, a: real, b: real, w: real, n: real, t: real)
    requires w == a * b && n == p * a && t == n * b
    ensures t == p * w
  {
  }

  lemma {:induction false} ScaleIsProduct(price: real, fs: seq<real>)
    ensures Scale(price, fs) == price * Product(fs)
    decreases |fs|
  {
    if |fs| > 0 {
      ScaleIsProduct(price * fs[0], fs[1..]);
      Associate(price, fs[0], Product(fs[1..]), Product(fs), price * fs[0], Scale(price * fs[0], fs[1..]));
    }
  }

  /** Stacking is multiplicative: the running price is the base price times the
      product of the matching rules' factors. */
  lemma DiscountedIsProduct(price: real, rules: seq<DiscountRule>, roles: set<string>, event: Option<string>)
    ensures Discounted(price, rules, roles, event) == price * Multiplier(rules, roles, event)
  {
    DiscountedIsScale(price, rules, roles, event);
    ScaleIsProduct(price, Factors(rules, roles, event));
  }

  lemma MulNonNegative(a: real, b: real)
    requires 0.0 <= a && 0.0 <= b
    ensures 0.0 <= a * b
  {
  }

  lemma MulAtMostOne(a: real, b: real)
    requires 0.0 <= a && b <= 1.0
    ensures a * b <= a
  {
    MulNonNegative(a, 1.0 - b);
    assert a * (1.0 - b) == a - a * b;
  }

  lemma UnitProduct(a: real, b: real)
    requires 0.0 <= a <= 1.0 && 0.0 <= b <= 1.0
    ensures 0.0 <= a * b <= 1.0
  {
    MulNonNegative(a, b);
    MulAtMostOne(a, b);
  }

  /** Rules are applied in list order: the rules of `a`, then those of `b`. */
  lemma {:induction false} DiscountsCompose(price: real, a: seq<DiscountRule>, b: seq<DiscountRule>, roles: set<string>, event: Option<string>)
    ensures Discounted(price, a + b, roles, event) == Discounted(Discounted(price, a, roles, event), b, roles, event)
    decreases |a|
  {
    if |a| > 0 {
      assert (a + b)[0] == a[0];
      assert (a + b)[1..] == a[1..] + b;
      DiscountsCompose(Step(price, a[0], roles, event), a[1..], b, roles, event);
    } else {
      assert a + b == b;
    }
  }

  /** A product of factors in [0, 1] lies in [0, 1]. */
  lemma {:induction false} ProductInUnitRange(fs: seq<real>)
    requires forall i :: 0 <= i < |fs| ==> 0.0 <= fs[i] <= 1.0
    ensures 0.0 <= Product(fs) <= 1.0
    decreases |fs|
  {
    if |fs| > 0 {
      assert forall i :: 0 <= i < |fs| - 1 ==> fs[1..][i] == fs[i + 1];
      ProductInUnitRange(fs[1..]);
      UnitProduct(fs[0], Product(fs[1..]));
    }
  }

  /** With every amount between 0 and 100 each matching factor lies in [0, 1],
      so the product does too. */
  lemma MultiplierInUnitRange(rules: seq<DiscountRule>, roles: set<string>, event: Option<string>)
    requires AmountsInRange(rules)
    ensures 0.0 <= Multiplier(rules, roles, event) <= 1.0
  {
    var fs := Factors(rules, roles, event);
    forall i | 0 <= i < |fs| ensures 0.0 <= fs[i] <= 1.0 {
      assert 0.0 <= rules[i].amount <= 100.0;
    }
    ProductInUnitRange(fs);
  }

  /** A product of ones is one. */
  lemma {:induction false} ProductOfOnes(fs: seq<real>)
    requires forall i :: 0 <= i < |fs| ==> fs[i] == 1.0
    ensures Product(fs) == 1.0
    decreases |fs|
  {
    if |fs| > 0 {
      assert forall i :: 0 <= i < |fs| - 1 ==> fs[1..][i] == fs[i + 1];
      ProductOfOnes(fs[1..]);
    }
  }

  /** When no rule matches, every factor is 1. */
  lemma NoMatchMultiplier(rules: seq<DiscountRule>, roles: set<string>, event: Option<string>)
    requires NoneMatch(rules, roles, event)
    ensures Multiplier(rules, roles, event) == 1.0
  {
    ProductOfOnes(Factors(rules, roles, event));
  }

  /** `apply_discounts`: the base price times the product of the matching rules'
      factors, truncated toward zero. No rule that matches leaves the price as
      it was; with amounts in [0, 100] a non-negative price never grows and
      never drops below zero. */
  function ApplyDiscounts(rules: seq<DiscountRule>, roles: set<string>, basePrice: int, event: Option<string>): (r: int)
    ensures var exact := basePrice as real * Multiplier(rules, roles, event);
      (0.0 <= exact ==> r as real <= exact < r as real + 1.0) && (exact < 0.0 ==> r as real - 1.0 < exact <= r as real)
    ensures NoneMatch(rules, roles, event) ==> r == basePrice
    ensures 0 <= basePrice && AmountsInRange(rules) ==> 0 <= r <= basePrice
  {
    DiscountedIsProduct(basePrice as real, rules, roles, event);
    if NoneMatch(rules, roles, event) then
      NoMatchMultiplier(rules, roles, event);
      UnitScale(basePrice as real, Multiplier(rules, roles, event));
      TruncateWhole(basePrice);
      Truncate(Discounted(basePrice as real, rules, roles, event))
    else if 0 <= basePrice && AmountsInRange(rules) then
      MultiplierInUnitRange(rules, roles, event);
      var m := Multiplier(rules, roles, event);
      MulNonNegative(basePrice as real, m);
      MulAtMostOne(basePrice as real, m);
      Truncate(Discounted(basePrice as real, rules, roles, event))
    else
      Truncate(Discounted(basePrice as real, rules, roles, event))
  }

  /** An empty rule list returns the base price unchanged. */
  lemma NoRulesKeepPrice(roles: set<string>, basePrice: int, event: Option<string>)
    ensures ApplyDiscounts([], roles, basePrice, event) == basePrice
  {
  }

  /** A single matching 50% rule halves a non-negative price, rounding down
      (so 3 becomes 1, not 2). */
  lemma HalfPrice(role: string, roles: set<string>, basePrice: int, event: Option<string>)
    requires role in roles && 0 <= basePrice
    ensures ApplyDiscounts([DiscountRule("role", Some(role), 50.0)], roles, basePrice, event) == basePrice / 2
  {
    var rules := [DiscountRule("role", Some(role), 50.0)];
    assert Multiplier(rules, roles, event) == 0.5 by {
      assert Factors(rules, roles, event) == [0.5];
      assert [0.5][1..] == [];
    }
    var q := basePrice / 2;
    assert basePrice as real * 0.5 == q as real + (basePrice % 2) as real * 0.5;
  }

  /** Two matching 50% rules compound to a quarter of the price, not to zero. */
  lemma TwoHalvesCompound(role: string, roles: set<string>, basePrice: int, event: Option<string>)
    requires role in roles && 0 <= basePrice
    ensures ApplyDiscounts([DiscountRule("role", Some(role), 50.0), DiscountRule("role", Some(role), 50.0)], roles, basePrice, event)
         == basePrice / 4
  {
    var d := DiscountRule("role", Some(role), 50.0);
    var rules := [d, d];
    assert Multiplier(rules, roles, event) == 0.25 by {
      assert Factors(rules, roles, event) == [0.5, 0.5];
      assert [0.5, 0.5][1..] == [0.5];
      assert [0.5][1..] == [];
    }
    var q := basePrice / 4;
    assert basePrice as real * 0.25 == q as real + (basePrice % 4) as real * 0.25;
  }

  /** No event in progress: an event rule with a named target never applies, while
      one whose target is null does. */
  lemma NullEventTarget(roles: set<string>, name: string, amount: real, basePrice: int)
    ensures ApplyDiscounts([DiscountRule("event", Some(name), amount)], roles, basePrice, None) == basePrice
    ensures ApplyDiscounts([DiscountRule("event", None, 50.0)], roles, 100, None) == 50
  {
    var rules := [DiscountRule("event", None, 50.0)];
    assert Multiplier(rules, roles, None) == 0.5 by {
      assert Factors(rules, roles, None) == [0.5];
      assert [0.5][1..] == [];
    }
  }

  /** Nothing clamps the result: an amount above 100 yields a negative price. */
  lemma NoClampAtZero(role: string)
    ensures ApplyDiscounts([DiscountRule("role", Some(role), 150.0)], {role}, 100, None) == -50
  {
    var rules := [DiscountRule("role", Some(role), 150.0)];
    assert Multiplier(rules, {role}, None) == -0.5 by {
      assert Factors(rules, {role}, None) == [-0.5];
      assert [-0.5][1..] == [];
    }
  }
}

=== FILE: results.dfy ===
/** Failure-carrying wrappers used throughout the model, and a first-match search
    over sequences (the shape of a SQL point lookup over an unordered table). */
module Results {

  /** A value that may be absent: Python's `None` or a missing row. */
  datatype Option<+T> = None | Some(value: T)

  /** The outcome of an operation that can raise: `Failure` stands for the exception. */
  datatype Result<+T, +E> = Success(value: T) | Failure(error: E)

  /** Index of the first element of `s` satisfying `p`, or None. */
  function FirstIndex<T>(s: seq<T>, p: T -> bool): (r: Option<nat>)
    ensures r.Some? ==> r.value < |s| && p(s[r.value])
    ensures r.Some? ==> forall k :: 0 <= k < r.value ==> !p(s[k])
    ensures r.None? ==> forall k :: 0 <= k < |s| ==> !p(s[k])
  {
    if |s| == 0 then None
    else if p(s[0]) then Some(0)
    else
      match FirstIndex(s[1..], p)
      case None => None
      case Some(k) => Some(k + 1)
  }
}

=== FILE: shop_ui.dfy ===
/** The admin's "add to shop" wizard: a view that remembers the chosen category
    and library item, menus whose option values are ids rendered with `str`,
    and the configuration form whose text fields are parsed into a shop row.
    Discord itself (rendering, interactions, the view timeout) is not modelled:
    each transition takes the store and returns the next view or store. */
module ShopUi {
  import opened Results
  import opened Text
  import opened Db

  // ---------------------------------------------------------------------------
  // The configuration form
  // ---------------------------------------------------------------------------

  /** The five text inputs of the form, as typed. */
  datatype ConfigForm = ConfigForm(price: string, quantity: string, quality: string, isBlueprint: string, buyLimit: string)

  /** What the form holds when it opens: quantity "1", blueprint "false", the rest empty. */
  const InitialForm: ConfigForm := ConfigForm("", "1", "", "false", "")

  datatype FormField = PriceField | QuantityField | QualityField | BuyLimitField

  datatype UiError =
    | BadSelection(value: string)   // a menu value that is not an integer
    | LibraryRowMissing             // the selected library row does not exist
    | NotAnInteger(field: FormField)

  /** The parsed form. */
  datatype Pricing = Pricing(price: int, quantity: int, quality: Option<int>, isBlueprint: bool, buyLimit: Option<int>)

  /** The spellings the form accepts as "yes, a blueprint", after strip and lower. */
  predicate BlueprintWord(w: string) {
    w == "true" || w == "yes" || w == "1" || w == "y"
  }

  predicate BlueprintFlag(text: string) {
    BlueprintWord(LowerAscii(Strip(text)))
  }

  /** On text without surrounding whitespace the flag only lower-cases. */
  lemma BlueprintFlagTrimmed(w: string)
    requires Trimmed(w)
    ensures BlueprintFlag(w) <==> BlueprintWord(LowerAscii(w))
  {
    StripTrimmed(w);
  }

  /** `int(text) if text else default`: only the empty string takes the
      default; anything else, whitespace included, must parse. */
  function ParseOptional(text: string): (r: Option<Option<int>>)
    ensures text == "" ==> r == Some(None)
    ensures text != "" ==> (r.Some? <==> ParseInt(text).Some?)
    ensures text != "" && r.Some? ==> r.value == Some(ParseInt(text).value)
  {
    if text == "" then Some(None)
    else match ParseInt(text)
      case None => None
      case Some(n) => Some(Some(n))
  }

  /** The field parsing of the submit handler. Fields are read in order (price,
      quantity, quality, blueprint, buy limit), so the first text that is not
      an integer names the error; the blueprint flag cannot fail. */
  function ParseForm(f: ConfigForm): (r: Result<Pricing, UiError>)
    ensures r.Success? <==>
      ParseInt(f.price).Some? && ParseOptional(f.quantity).Some? && ParseOptional(f.quality).Some? && ParseOptional(f.buyLimit).Some?
    ensures ParseInt(f.price).None? ==> r == Failure(NotAnInteger(PriceField))
    ensures ParseInt(f.price).Some? && ParseOptional(f.quantity).None? ==> r == Failure(NotAnInteger(QuantityField))
    ensures ParseInt(f.price).Some? && ParseOptional(f.quantity).Some? && ParseOptional(f.quality).None?
      ==> r == Failure(NotAnInteger(QualityField))
    ensures ParseInt(f.price).Some? && ParseOptional(f.quantity).Some? && ParseOptional(f.quality).Some? && ParseOptional(f.buyLimit).None?
      ==> r == Failure(NotAnInteger(BuyLimitField))
    ensures r.Success? ==>
      && r.value.price == ParseInt(f.price).value
      && r.value.quantity == (if f.quantity == "" then 1 else ParseInt(f.quantity).value)
      && r.value.quality == ParseOptional(f.quality).value
      && (r.value.isBlueprint <==> BlueprintFlag(f.isBlueprint))
      && r.value.buyLimit == ParseOptional(f.buyLimit).value
  {
    match ParseInt(f.price)
    case None => Failure(NotAnInteger(PriceField))
    case Some(price) =>
      match ParseOptional(f.quantity)
      case None => Failure(NotAnInteger(QuantityField))
      case Some(qty) =>
        match ParseOptional(f.quality)
        case None => Failure(NotAnInteger(QualityField))
        case Some(quality) =>
          var isBp := BlueprintFlag(f.isBlueprint);
          match ParseOptional(f.buyLimit)
          case None => Failure(NotAnInteger(BuyLimitField))
          case Some(limit) =>
            Success(Pricing(price, if qty.Some? then qty.value else 1, quality, isBp, limit))
  }

  function ShowOptional(n: Option<int>): string {
    match n
    case None => ""
    case Some(k) => ShowInt(k)
  }

  /** What an admin would type to ask for `p`. */
  function RenderForm(p: Pricing): ConfigForm {
    ConfigForm(ShowInt(p.price), ShowInt(p.quantity), ShowOptional(p.quality),
               if p.isBlueprint then "true" else "false", ShowOptional(p.buyLimit))
  }

  lemma ShowOptionalParses(n: Option<int>)
    ensures ParseOptional(ShowOptional(n)) == Some(n)
  {
    if n.Some? {
      ParseShowInt(n.value);
    }
  }

  /** The form parses to `p` when each field does. */
  lemma ParseFormFields(f: ConfigForm, p: Pricing)
    requires ParseInt(f.price) == Some(p.price)
    requires ParseOptional(f.quantity) == Some(Some(p.quantity))
    requires ParseOptional(f.quality) == Some(p.quality)
    requires BlueprintFlag(f.isBlueprint) == p.isBlueprint
    requires ParseOptional(f.buyLimit) == Some(p.buyLimit)
    ensures ParseForm(f) == Success(p)
  {
  }

  /** The word the form writes for a blueprint reads back as one ... */
  lemma BlueprintTrue()
    ensures BlueprintFlag("true")
  {
    BlueprintFlagTrimmed("true");
    assert LowerAscii("true") == "true";
  }

  /** ... and the word it writes otherwise, the form's initial text, does not. */
  lemma BlueprintFalse()
    ensures !BlueprintFlag("false")
  {
    BlueprintFlagTrimmed("false");
    assert LowerAscii("false") == "false";
  }

  /** Typing the numbers out and submitting gives back exactly those numbers. */
  lemma ParseRenderedForm(p: Pricing)
    ensures ParseForm(RenderForm(p)) == Success(p)
  {
    ParseShowInt(p.price);
    ShowOptionalParses(Some(p.quantity));
    ShowOptionalParses(p.quality);
    ShowOptionalParses(p.buyLimit);
    BlueprintTrue();
    BlueprintFalse();
    ParseFormFields(RenderForm(p), p);
  }

  /** Surrounding whitespace and upper case are ignored by the blueprint flag,
      and only the four listed words turn it on. */
  lemma BlueprintVocabulary(left: string, w: string, right: string)
    requires AllSpace(left) && AllSpace(right) && Trimmed(w)
    ensures BlueprintFlag(left + w + right) <==> BlueprintWord(LowerAscii(w))
  {
    StripPadded(left, w, right);
  }

  /** Surrounding blanks and upper case do not matter: " YES " turns the flag on. */
  lemma BlueprintPaddedUpper(left: string, right: string)
    requires AllSpace(left) && AllSpace(right)
    ensures BlueprintFlag(left + "YES" + right)
  {
    UpperYes();
    BlueprintVocabulary(left, "YES", right);
  }

  lemma UpperYes()
    ensures Trimmed("YES") && BlueprintWord(LowerAscii("YES"))
  {
    assert LowerAscii("YES") == "yes";
  }

  /** The one-letter spelling counts too. */
  lemma BlueprintLetter()
    ensures BlueprintFlag("Y")
  {
    BlueprintFlagTrimmed("Y");
    assert LowerAscii("Y") == "y";
  }

  /** "no" and the empty text leave it off. */
  lemma BlueprintRejected()
    ensures !BlueprintFlag("no") && !BlueprintFlag("")
  {
    BlueprintFlagTrimmed("no");
    assert LowerAscii("no") == "no";
    BlueprintFlagTrimmed("");
    assert LowerAscii("") == "";
  }

  /** An empty quantity means 1 and an empty quality or buy limit means none. */
  lemma EmptyFieldDefaults(price: int, isBlueprint: string)
    ensures ParseForm(ConfigForm(ShowInt(price), "", "", isBlueprint, "")) == Success(Pricing(price, 1, None, BlueprintFlag(isBlueprint), None))
  {
    ParseShowInt(price);
  }

  /** The form as it opens, with only a price typed in: one unit, no quality,
      not a blueprint, no buy limit. Left untouched, the price field fails. */
  lemma OnlyPriceTyped(price: int)
    ensures ParseForm(InitialForm.(price := ShowInt(price))) == Success(Pricing(price, 1, None, false, None))
    ensures ParseForm(InitialForm) == Failure(NotAnInteger(PriceField))
  {
    ParseShowInt(price);
    ParseShowInt(1);
    BlueprintFalse();
  }

  /** A blank that is not empty is not an integer: a quantity of spaces fails
      rather than defaulting to 1, whatever the later fields hold. */
  lemma BlankQuantityFails(price: int, blank: string, quality: string, isBlueprint: string, buyLimit: string)
    requires blank != "" && AllSpace(blank)
    ensures ParseForm(ConfigForm(ShowInt(price), blank, quality, isBlueprint, buyLimit)) == Failure(NotAnInteger(QuantityField))
  {
    ParseShowInt(price);
    BlankNotInteger(blank);
  }

  lemma BlankNotInteger(t: string)
    requires t != "" && AllSpace(t)
    ensures ParseOptional(t).None?
  {
  }

  // ---------------------------------------------------------------------------
  // The view
  // ---------------------------------------------------------------------------

  /** A select-menu entry: the row's name shown, its id as the value. */
  datatype MenuOption = MenuOption(caption: string, value: string)

  datatype Panel =
    | Closed
    | CategoryMenu(options: seq<MenuOption>)
    | ItemMenu(options: seq<MenuOption>)
    | ConfigPanel

  datatype View = View(selectedCategoryId: Option<int>, selectedItemLibraryId: Option<int>, panel: Panel)

  /** Rows per menu page, and the limit of the opening category search. */
  const PageSize: nat := 25

  /** A fresh wizard: nothing selected yet. */
  const NewView: View := View(None, None, Closed)

  /** The options of a select built from listed rows, in the same order. */
  function Options(rows: seq<Choice>): (r: seq<MenuOption>)
    ensures |r| == |rows|
    ensures forall k :: 0 <= k < |rows| ==> r[k].caption == rows[k].name && ParseInt(r[k].value) == Some(rows[k].id as int)
  {
    var r := seq(|rows|, k requires 0 <= k < |rows| => MenuOption(rows[k].name, ShowInt(rows[k].id)));
    forall k | 0 <= k < |rows| ensures ParseInt(r[k].value) == Some(rows[k].id as int) {
      ParseShowInt(rows[k].id);
    }
    r
  }

  /** The menu offers category `c`: an option captioned with its name whose
      value reads back as its id. */
  predicate Offered(options: seq<MenuOption>, c: Category) {
    exists k :: 0 <= k < |options| && options[k].caption == c.name && ParseInt(options[k].value) == Some(c.id as int)
  }

  /** `start`: offers the first page of categories, searched with the empty
      query: 25 of them, or all when there are fewer, and those first by name,
      so every category left out sorts no earlier than every one offered. The
      selections are untouched. */
  function Start(v: View, st: Store): (r: View)
    ensures r.selectedCategoryId == v.selectedCategoryId && r.selectedItemLibraryId == v.selectedItemLibraryId
    ensures r.panel == CategoryMenu(Options(SearchCategories(st, "", PageSize)))
    ensures |r.panel.options| == Min(|st.categories|, PageSize)
    ensures forall c :: c in st.categories && |st.categories| <= PageSize ==> Offered(r.panel.options, c)
    ensures forall c :: c in st.categories && !Offered(r.panel.options, c) ==>
      forall k :: 0 <= k < |r.panel.options| ==> LexLe(r.panel.options[k].caption, c.name)
  {
    var rows := SearchCategories(st, "", PageSize);
    var options := Options(rows);
    EmptyQueryKeepsAll(st.categories);
    forall c | c in st.categories
      ensures |st.categories| <= PageSize ==> Offered(options, c)
      ensures !Offered(options, c) ==> forall k :: 0 <= k < |options| ==> LexLe(options[k].caption, c.name)
    {
      if Choice(c.id, c.name) in rows {
        var k :| 0 <= k < |rows| && rows[k] == Choice(c.id, c.name);
        assert options[k].caption == c.name;
      } else {
        if |st.categories| <= PageSize {
          EmptySearchListsAll(st, PageSize, c);
        }
        EmptyQueryMatchesAll(c.name);
        SearchKeepsFirst(st, "", PageSize, c);
        forall k | 0 <= k < |options| ensures LexLe(options[k].caption, c.name) {
          assert rows[k] in rows;
        }
      }
    }
    v.(panel := CategoryMenu(options))
  }

  /** A fresh wizard starts with nothing selected and the category menu of the
      empty search. */
  lemma StartFresh(st: Store)
    ensures Start(NewView, st) == View(None, None, CategoryMenu(Options(SearchCategories(st, "", PageSize))))
  {
  }

  /** The rows `show_items(page)` lists: the selected category's rows at offset
      `page * 25`, at most 25. With no category selected the query compares
      against NULL and lists nothing. */
  function ItemPage(v: View, st: Store, page: nat): (rows: seq<Choice>)
    ensures |rows| <= PageSize
    ensures v.selectedCategoryId.None? ==> rows == []
    ensures v.selectedCategoryId.Some? ==> rows == ListItemsByCategory(st, v.selectedCategoryId.value, PageSize, page * PageSize)
  {
    match v.selectedCategoryId
    case None => []
    case Some(c) => ListItemsByCategory(st, c, PageSize, page * PageSize)
  }

  /** `show_items`: replaces the menu by the items of one page; the selections
      are untouched. */
  function ShowItems(v: View, st: Store, page: nat): (r: View)
    ensures r.selectedCategoryId == v.selectedCategoryId && r.selectedItemLibraryId == v.selectedItemLibraryId
    ensures r.panel == ItemMenu(Options(ItemPage(v, st, page)))
  {
    v.(panel := ItemMenu(Options(ItemPage(v, st, page))))
  }

  /** Category select: the chosen value becomes the selected category (and
      nothing else), then the first page of its items is shown. */
  function ChooseCategory(v: View, st: Store, value: string): (r: Result<View, UiError>)
    ensures r.Success? <==> ParseInt(value).Some?
    ensures r.Failure? ==> r.error == BadSelection(value)
    ensures r.Success? ==>
      && r.value.selectedCategoryId == ParseInt(value)
      && r.value.selectedItemLibraryId == v.selectedItemLibraryId
      && r.value.panel == ItemMenu(Options(ListItemsByCategory(st, ParseInt(value).value, PageSize, 0)))
  {
    match ParseInt(value)
    case None => Failure(BadSelection(value))
    case Some(id) => Success(ShowItems(v.(selectedCategoryId := Some(id)), st, 0))
  }

  /** Item select: the chosen value becomes the selected library item (and
      nothing else), then the form opens. */
  function ChooseItem(v: View, value: string): (r: Result<View, UiError>)
    ensures r.Success? <==> ParseInt(value).Some?
    ensures r.Failure? ==> r.error == BadSelection(value)
    ensures r.Success? ==>
      && r.value.selectedItemLibraryId == ParseInt(value)
      && r.value.selectedCategoryId == v.selectedCategoryId
      && r.value.panel == ConfigPanel
  {
    match ParseInt(value)
    case None => Failure(BadSelection(value))
    case Some(id) => Success(v.(selectedItemLibraryId := Some(id), panel := ConfigPanel))
  }

  /** Picking any offered category selects exactly that category's id. */
  lemma PickCategory(v: View, st: Store, k: nat)
    requires k < Min(|st.categories|, PageSize)
    ensures var rows := SearchCategories(st, "", PageSize);
      && ChooseCategory(Start(v, st), st, Start(v, st).panel.options[k].value).Success?
      && ChooseCategory(Start(v, st), st, Start(v, st).panel.options[k].value).value.selectedCategoryId == Some(rows[k].id as int)
  {
  }

  /** Picking any offered item selects exactly that row's id, keeping the category. */
  lemma PickItem(v: View, st: Store, page: nat, k: nat)
    requires k < |ItemPage(v, st, page)|
    ensures var rows := ItemPage(v, st, page);
      var picked := ChooseItem(ShowItems(v, st, page), ShowItems(v, st, page).panel.options[k].value);
      && picked.Success?
      && picked.value.selectedItemLibraryId == Some(rows[k].id as int)
      && picked.value.selectedCategoryId == v.selectedCategoryId
  {
  }

  /** Paging reaches every item: each library row of the selected category is
      offered on some page. */
  lemma EveryItemOffered(v: View, st: Store, row: LibraryItem) returns (page: nat)
    requires v.selectedCategoryId == Some(row.categoryId as int) && row in st.library
    ensures exists k :: (0 <= k < |ShowItems(v, st, page).panel.options|
      && ShowItems(v, st, page).panel.options[k].caption == row.name
      && ParseInt(ShowItems(v, st, page).panel.options[k].value) == Some(row.id as int))
  {
    page := EveryItemOnSomePage(st, row.categoryId, PageSize, row);
    var rows := ItemPage(v, st, page);
    var k :| 0 <= k < |rows| && rows[k] == Choice(row.id, row.name);
    assert ShowItems(v, st, page).panel.options[k].caption == row.name;
  }

  // ---------------------------------------------------------------------------
  // Submitting the form
  // ---------------------------------------------------------------------------

  /** The row the submit handler re-reads (`select ... where id=$1`); with no
      item selected the comparison is against NULL and finds nothing. */
  function SelectedRow(v: View, st: Store): (r: Option<LibraryItem>)
    ensures v.selectedItemLibraryId.None? ==> r.None?
    ensures r.Some? ==> r.value in st.library && v.selectedItemLibraryId == Some(r.value.id as int)
    ensures v.selectedItemLibraryId.Some? && r.None? ==> forall i :: 0 <= i < |st.library| ==> st.library[i].id != v.selectedItemLibraryId.value
  {
    match v.selectedItemLibraryId
    case None => None
    case Some(id) => LibraryById(st, id)
  }

  /** `on_submit`: re-reads the selected library row (a missing row fails
      before any parsing), parses the form, and inserts one single-kind shop row
      that takes its library id from the selection, its category, name and
      blueprint path from the library row, and the rest from the form. On any
      failure nothing is written. */
  function Submit(v: View, st: Store, f: ConfigForm): (r: Result<Store, UiError>)
    ensures SelectedRow(v, st).None? ==> r == Failure(LibraryRowMissing)
    ensures SelectedRow(v, st).Some? && ParseForm(f).Failure? ==> r == Failure(ParseForm(f).error)
    ensures r.Success? <==> SelectedRow(v, st).Some? && ParseForm(f).Success?
    ensures r.Success? ==>
      && |r.value.shopItems| == |st.shopItems| + 1 && r.value.shopItems[..|st.shopItems|] == st.shopItems
      && r.value.categories == st.categories && r.value.library == st.library
    ensures r.Success? ==>
      var lib := SelectedRow(v, st).value;
      var p := ParseForm(f).value;
      var row := r.value.shopItems[|st.shopItems|];
      && row.libraryId == lib.id && row.categoryId == lib.categoryId && row.name == lib.name && row.blueprintPath == lib.blueprintPath
      && row.price == p.price && row.quantity == p.quantity && row.quality == p.quality
      && row.isBlueprint == p.isBlueprint && row.buyLimit == p.buyLimit
      && row.kind == Single && row.kitId.None? && row.active
    ensures r.Success? && Valid(st) ==> Valid(r.value)
  {
    match SelectedRow(v, st)
    case None => Failure(LibraryRowMissing)
    case Some(lib) =>
      match ParseForm(f)
      case Failure(e) => Failure(e)
      case Success(p) =>
        Success(CreateShopItem(st, lib.id, lib.categoryId, lib.name, lib.blueprintPath,
                               p.price, p.quantity, p.quality, p.isBlueprint, p.buyLimit))
  }

  /** Submitting twice inserts twice: nothing in the wizard deduplicates. */
  lemma SubmitTwiceAddsTwoRows(v: View, st: Store, f: ConfigForm)
    requires Valid(st)
    requires Submit(v, st, f).Success?
    ensures var once := Submit(v, st, f).value;
      && Submit(v, once, f).Success?
      && |Submit(v, once, f).value.shopItems| == |st.shopItems| + 2
  {
    var once := Submit(v, st, f).value;
    assert once.library == st.library;
    assert SelectedRow(v, once) == SelectedRow(v, st);
  }

  /** The whole happy path: a category and an item upserted into a store, the
      item chosen from the menu, and a rendered form submitted, adds a row that
      points at that library item and carries exactly the typed values. */
  lemma SubmitRenderedForm(v: View, st: Store, p: Pricing, row: LibraryItem)
    requires Valid(st) && row in st.library && v.selectedItemLibraryId == Some(row.id as int)
    ensures Submit(v, st, RenderForm(p)).Success?
    ensures var out := Submit(v, st, RenderForm(p)).value;
      var added := out.shopItems[|st.shopItems|];
      && added.libraryId == row.id && added.categoryId == row.categoryId && added.name == row.name
      && added.price == p.price && added.quantity == p.quantity && added.quality == p.quality
      && added.isBlueprint == p.isBlueprint && added.buyLimit == p.buyLimit
  {
    ParseRenderedForm(p);
    var lib := SelectedRow(v, st).value;
  }
}

=== FILE: text.dfy ===
/** The few Python string operations the shop relies on, with the semantics of
    CPython's `str`: `isspace`, `strip`, `lower` (ASCII letters), `str(int)`,
    `int(str)` (decimal, ASCII digits), `split(" ")` and `join`, plus the
    code-point lexicographic order that an `order by name` yields under the C
    collation. */
module Text {
  import opened Results

  // ---------------------------------------------------------------------------
  // Whitespace, strip and lower
  // ---------------------------------------------------------------------------

  /** The characters for which CPython's `str.isspace()` holds. */
  predicate IsSpace(c: char) {
    || c == ' '
    || ('\t' <= c <= '\r')
    || ('\U{1C}' <= c <= '\U{1F}')
    || c == '\U{85}' || c == '\U{A0}' || c == '\U{1680}'
    || ('\U{2000}' <= c <= '\U{200A}')
    || c == '\U{2028}' || c == '\U{2029}' || c == '\U{202F}' || c == '\U{205F}' || c == '\U{3000}'
  }

  /** The four ASCII information separators U+001C to U+001F: `isspace()` holds
      for them, but `int()` neither skips them nor reads them as part of a number. */
  predicate IsSeparator(c: char) {
    '\U{1C}' <= c <= '\U{1F}'
  }

  /** The whitespace `int()` skips around a number: `isspace()` without the
      information separators. */
  predicate IsIntSpace(c: char) {
    IsSpace(c) && !IsSeparator(c)
  }

  predicate AllIntSpace(s: string) {
    forall i :: 0 <= i < |s| ==> IsIntSpace(s[i])
  }

  predicate NoSeparator(s: string) {
    forall i :: 0 <= i < |s| ==> !IsSeparator(s[i])
  }

  predicate AllSpace(s: string) {
    forall i :: 0 <= i < |s| ==> IsSpace(s[i])
  }

  /** `s` neither starts nor ends with whitespace: what `strip()` leaves behind. */
  predicate Trimmed(s: string) {
    |s| > 0 ==> !IsSpace(s[0]) && !IsSpace(s[|s| - 1])
  }

  /** Python's `s.strip()`: drops leading and trailing whitespace, one
      character at a time. */
  function Strip(s: string): (r: string)
    ensures Trimmed(r)
    ensures |r| <= |s|
    ensures r == "" <==> AllSpace(s)
    decreases |s|
  {
    if |s| > 0 && IsSpace(s[0]) then
      assert forall i :: 1 <= i < |s| ==> s[i] == s[1..][i - 1];
      Strip(s[1..])
    else if |s| > 0 && IsSpace(s[|s| - 1]) then
      assert forall i :: 0 <= i < |s| - 1 ==> s[i] == s[..|s| - 1][i];
      Strip(s[..|s| - 1])
    else
      s
  }

  /** `strip()` removes exactly the surrounding whitespace: a trimmed word padded
      on both sides with whitespace strips back to the word. */
  lemma {:induction false} StripPadded(left: string, w: string, right: string)
    requires AllSpace(left) && AllSpace(right) && Trimmed(w)
    ensures Strip(left + w + right) == w
    decreases |left| + |right|
  {
    if |left| > 0 {
      DropFirstPadded(left, w, right);
      StripPadded(left[1..], w, right);
    } else if |right| > 0 {
      DropLastPadded(left, w, right);
      if |w| > 0 {
        assert (left + w + right)[0] == w[0];
      } else {
        assert (left + w + right)[0] == right[0];
      }
      StripPadded(left, w, right[..|right| - 1]);
    } else {
      assert left + w + right == w;
    }
  }

  lemma DropFirstPadded(left: string, w: string, right: string)
    requires |left| > 0
    ensures (left + w + right)[0] == left[0]
    ensures (left + w + right)[1..] == left[1..] + w + right
  {
  }

  lemma DropLastPadded(left: string, w: string, right: string)
    requires |right| > 0
    ensures (left + w + right)[|left + w + right| - 1] == right[|right| - 1]
    ensures (left + w + right)[..|left + w + right| - 1] == left + w + right[..|right| - 1]
  {
  }

  lemma StripTrimmed(w: string)
    requires Trimmed(w)
    ensures Strip(w) == w
  {
    assert "" + w + "" == w;
    StripPadded("", w, "");
  }

  function LowerChar(c: char): char {
    if 'A' <= c <= 'Z' then (c as int + 32) as char else c
  }

  predicate IsUpper(c: char) {
    'A' <= c <= 'Z'
  }

  /** Python's `s.lower()` restricted to ASCII letters: no capital letter is
      left, each capital becomes the same letter in lower case, and every other
      character stays where it was. */
  function LowerAscii(s: string): (r: string)
    ensures |r| == |s|
    ensures forall i :: 0 <= i < |r| ==> !IsUpper(r[i])
    ensures forall i :: 0 <= i < |s| && !IsUpper(s[i]) ==> r[i] == s[i]
    ensures forall i :: 0 <= i < |s| && IsUpper(s[i]) ==> 'a' <= r[i] <= 'z' && r[i] as int - 'a' as int == s[i] as int - 'A' as int
  {
    seq(|s|, i requires 0 <= i < |s| => LowerChar(s[i]))
  }

  /** Lower-casing twice is lower-casing once. */
  lemma LowerAsciiIdempotent(s: string)
    ensures LowerAscii(LowerAscii(s)) == LowerAscii(s)
  {
    var r := LowerAscii(s);
    assert forall i :: 0 <= i < |r| ==> LowerAscii(r)[i] == r[i];
  }

  /** Lower-casing leaves a text alone exactly when it has no capital letter. */
  lemma LowerAsciiFixed(s: string)
    ensures LowerAscii(s) == s <==> forall i :: 0 <= i < |s| ==> !IsUpper(s[i])
  {
    if forall i :: 0 <= i < |s| ==> !IsUpper(s[i]) {
      assert forall i :: 0 <= i < |s| ==> LowerAscii(s)[i] == s[i];
    }
  }

  // ---------------------------------------------------------------------------
  // Decimal integers: str(n) and int(s)
  // ---------------------------------------------------------------------------

  predicate IsDigit(c: char) {
    '0' <= c <= '9'
  }

  function DigitChar(d: nat): (c: char)
    requires d < 10
    ensures IsDigit(c)
  {
    ('0' as int + d) as char
  }

  function DigitValue(c: char): nat
    requires IsDigit(c)
  {
    c as int - '0' as int
  }

  predicate AllDigits(s: string) {
    forall i :: 0 <= i < |s| ==> IsDigit(s[i])
  }

  /** Decimal notation of a natural number, without leading zeros. */
  function ShowNat(n: nat): (r: string)
    ensures |r| > 0 && AllDigits(r)
    ensures r[0] == '0' ==> n == 0
    decreases n
  {
    if n < 10 then [DigitChar(n)] else ShowNat(n / 10) + [DigitChar(n % 10)]
  }

  /** Python's `str(n)` for an int. */
  function ShowInt(n: int): (r: string)
    ensures |r| > 0 && Trimmed(r) && ' ' !in r
    ensures r[0] == '-' <==> n < 0
    ensures AllDigits(r[1..])
    ensures n >= 0 ==> AllDigits(r) && (r[0] == '0' ==> n == 0)
    ensures n < 0 ==> |r| > 1 && r[1] != '0'
  {
    if n < 0 then "-" + ShowNat(-n) else ShowNat(n)
  }

  /** CPython's grammar for the digits of a decimal `int()` literal: digits,
      with single underscores allowed between two digits. */
  predicate DigitGroups(s: string) {
    && |s| > 0
    && IsDigit(s[0])
    && DigitsOrUnderscores(s)
    && IsDigit(s[|s| - 1])
    && UnderscoreBeforeDigit(s)
  }

  /** Every underscore that is not last is followed by a digit. */
  predicate UnderscoreBeforeDigit(s: string) {
    |s| < 2 || ((s[0] == '_' ==> IsDigit(s[1])) && UnderscoreBeforeDigit(s[1..]))
  }

  predicate DigitsOrUnderscores(s: string) {
    forall i :: 0 <= i < |s| ==> IsDigit(s[i]) || s[i] == '_'
  }

  /** The value of a digit string, underscores ignored. */
  function DigitsValue(s: string): nat
    requires DigitsOrUnderscores(s)
  {
    if |s| == 0 then 0
    else if s[|s| - 1] == '_' then DigitsValue(s[..|s| - 1])
    else DigitsValue(s[..|s| - 1]) * 10 + DigitValue(s[|s| - 1])
  }

  function Unsigned(t: string): string {
    if |t| > 0 && (t[0] == '-' || t[0] == '+') then t[1..] else t
  }

  /** Python's `int(s)`: surrounding whitespace is ignored, one optional sign,
      then decimal digits. None stands for the ValueError. `int()` skips the
      whitespace of `isspace()` except the information separators, and a
      separator can be neither padding nor part of the number, so any
      separator makes it fail; without one, `int()` skips what `strip()` drops. */
  function ParseInt(s: string): (r: Option<int>)
    ensures AllSpace(s) ==> r.None?
    ensures !NoSeparator(s) ==> r.None?
  {
    if !NoSeparator(s) then None
    else
      var t := Strip(s);
      var body := Unsigned(t);
      if DigitGroups(body) then
        var magnitude: int := DigitsValue(body);
        Some(if |t| > 0 && t[0] == '-' then -magnitude else magnitude)
      else None
  }

  /** Where `int()` and `strip()` part ways: a leading information separator is
      stripped by `strip()` but makes `int()` fail. */
  lemma SeparatorNotIntSpace()
    ensures Strip("\U{1C}5") == "5"
    ensures ParseInt("\U{1C}5") == None
    ensures ParseInt("5") == Some(5)
  {
    assert "\U{1C}5"[1..] == "5";
    assert !NoSeparator("\U{1C}5") by { assert IsSeparator("\U{1C}5"[0]); }
    ParseShowInt(5);
  }

  /** `str(n)` holds no information separator. */
  lemma ShowIntNoSeparator(n: int)
    ensures NoSeparator(ShowInt(n))
  {
    var s := ShowInt(n);
    forall i | 0 <= i < |s| ensures !IsSeparator(s[i]) {
      if i > 0 {
        assert s[i] == s[1..][i - 1];
      }
    }
  }

  lemma {:induction false} AllDigitsSeparated(s: string)
    requires AllDigits(s)
    ensures UnderscoreBeforeDigit(s)
    decreases |s|
  {
    if |s| >= 2 {
      assert AllDigits(s[1..]) by {
        forall i | 0 <= i < |s| - 1 ensures IsDigit(s[1..][i]) { assert s[1..][i] == s[i + 1]; }
      }
      AllDigitsSeparated(s[1..]);
    }
  }

  lemma {:induction false} ShowNatValue(n: nat)
    ensures DigitGroups(ShowNat(n))
    ensures DigitsValue(ShowNat(n)) == n
    decreases n
  {
    var s := ShowNat(n);
    AllDigitsSeparated(s);
    if n >= 10 {
      ShowNatValue(n / 10);
      assert s[..|s| - 1] == ShowNat(n / 10);
    }
  }

  /** `int(str(n)) == n`: the decimal rendering of an int parses back to it. */
  lemma {:induction false} ParseShowInt(n: int)
    ensures ParseInt(ShowInt(n)) == Some(n)
  {
    var s := ShowInt(n);
    StripTrimmed(s);
    ShowIntNoSeparator(n);
    if n < 0 {
      ShowNatValue(-n);
      assert Unsigned(s) == ShowNat(-n);
    } else {
      ShowNatValue(n);
      assert Unsigned(s) == s;
    }
  }

  /** Whitespace that `int()` skips, around a rendered int, is ignored. */
  lemma ParsePaddedInt(left: string, n: int, right: string)
    requires AllIntSpace(left) && AllIntSpace(right)
    ensures ParseInt(left + ShowInt(n) + right) == Some(n)
  {
    var s := left + ShowInt(n) + right;
    ShowIntNoSeparator(n);
    assert NoSeparator(s) by {
      forall i | 0 <= i < |s| ensures !IsSeparator(s[i]) {
        if i < |left| {
          assert s[i] == left[i];
        } else if i < |left| + |ShowInt(n)| {
          assert s[i] == ShowInt(n)[i - |left|];
        } else {
          assert s[i] == right[i - |left| - |ShowInt(n)|];
        }
      }
    }
    StripPadded(left, ShowInt(n), right);
    StripTrimmed(ShowInt(n));
    ParseShowInt(n);
  }

  // ---------------------------------------------------------------------------
  // split(" ") and join
  // ---------------------------------------------------------------------------

  /** Python's `s.split(" ")`: fields separated by single spaces, empty fields kept. */
  function Split(s: string): (r: seq<string>)
    ensures |r| > 0
  {
    if |s| == 0 then [""]
    else
      var rest := Split(s[1..]);
      if s[0] == ' ' then [""] + rest
      else [[s[0]] + rest[0]] + rest[1..]
  }

  /** Python's `sep.join(ws)`. */
  function Join(ws: seq<string>, sep: string): string {
    if |ws| == 0 then ""
    else if |ws| == 1 then ws[0]
    else ws[0] + sep + Join(ws[1..], sep)
  }

  predicate NoSpaces(ws: seq<string>) {
    forall i :: 0 <= i < |ws| ==> ' ' !in ws[i]
  }

  lemma {:induction false} SplitWord(a: string, b: string)
    requires ' ' !in a
    ensures Split(a + " " + b) == [a] + Split(b)
    decreases |a|
  {
    if |a| == 0 {
      assert a + " " + b == [' '] + b;
      assert ([' '] + b)[1..] == b;
    } else {
      assert (a + " " + b)[1..] == a[1..] + " " + b;
      SplitWord(a[1..], b);
      assert [a[0]] + a[1..] == a;
    }
  }

  lemma {:induction false} SplitSingle(a: string)
    requires ' ' !in a
    ensures Split(a) == [a]
    decreases |a|
  {
    if |a| > 0 {
      SplitSingle(a[1..]);
      assert [a[0]] + a[1..] == a;
    }
  }

  /** Splitting a space-joined list of space-free fields gives the fields back. */
  lemma {:induction false} SplitJoin(ws: seq<string>)
    requires |ws| > 0 && NoSpaces(ws)
    ensures Split(Join(ws, " ")) == ws
    decreases |ws|
  {
    if |ws| == 1 {
      SplitSingle(ws[0]);
    } else {
      assert NoSpaces(ws[1..]) by {
        forall i | 0 <= i < |ws| - 1 ensures ' ' !in ws[1..][i] {
          assert ws[1..][i] == ws[i + 1];
        }
      }
      SplitJoin(ws[1..]);
      assert ' ' !in ws[0];
      SplitWord(ws[0], Join(ws[1..], " "));
      assert [ws[0]] + ws[1..] == ws;
    }
  }

  predicate HasPrefix(s: string, p: string) {
    |p| <= |s| && s[..|p|] == p
  }

  lemma JoinUnfold(ws: seq<string>, sep: string)
    requires |ws| >= 2
    ensures Join(ws, sep) == ws[0] + sep + Join(ws[1..], sep)
  {
  }

  /** Joining a list that starts with `w` puts `w` and the separator in front. */
  lemma JoinCons(w: string, ws: seq<string>, sep: string)
    requires |ws| > 0
    ensures Join([w] + ws, sep) == w + sep + Join(ws, sep)
  {
    assert ([w] + ws)[1..] == ws;
  }

  lemma JoinTwo(a: string, b: string, sep: string)
    ensures Join([a, b], sep) == a + sep + b
  {
    assert [a, b][1..] == [b];
  }

  lemma JoinThree(a: string, b: string, c: string, sep: string)
    ensures Join([a, b, c], sep) == a + sep + b + sep + c
  {
    assert [a, b, c] == [a] + [b, c];
    JoinCons(a, [b, c], sep);
    JoinTwo(b, c, sep);
  }

  lemma JoinFour(a: string, b: string, c: string, d: string, sep: string)
    ensures Join([a, b, c, d], sep) == a + sep + b + sep + c + sep + d
  {
    assert [a, b, c, d] == [a] + [b, c, d];
    JoinCons(a, [b, c, d], sep);
    JoinThree(b, c, d, sep);
  }

  lemma JoinFive(a: string, b: string, c: string, d: string, e: string, sep: string)
    ensures Join([a, b, c, d, e], sep) == a + sep + b + sep + c + sep + d + sep + e
  {
    assert [a, b, c, d, e] == [a] + [b, c, d, e];
    JoinCons(a, [b, c, d, e], sep);
    JoinFour(b, c, d, e, sep);
  }

  lemma JoinSix(a: string, b: string, c: string, d: string, e: string, f: string, sep: string)
    ensures Join([a, b, c, d, e, f], sep) == a + sep + b + sep + c + sep + d + sep + e + sep + f
  {
    assert [a, b, c, d, e, f] == [a] + [b, c, d, e, f];
    JoinCons(a, [b, c, d, e, f], sep);
    JoinFive(b, c, d, e, f, sep);
  }

  /** Joins of seven and nine fields, spelled out: the two command grammars. */
  lemma JoinSeven(a: string, b: string, c: string, d: string, e: string, f: string, g: string, sep: string)
    ensures Join([a, b, c, d, e, f, g], sep) == a + sep + b + sep + c + sep + d + sep + e + sep + f + sep + g
  {
    assert [a, b, c, d, e, f, g] == [a] + [b, c, d, e, f, g];
    JoinCons(a, [b, c, d, e, f, g], sep);
    JoinSix(b, c, d, e, f, g, sep);
  }

  lemma JoinEight(a: string, b: string, c: string, d: string, e: string, f: string, g: string, h: string, sep: string)
    ensures Join([a, b, c, d, e, f, g, h], sep) == a + sep + b + sep + c + sep + d + sep + e + sep + f + sep + g + sep + h
  {
    assert [a, b, c, d, e, f, g, h] == [a] + [b, c, d, e, f, g, h];
    JoinCons(a, [b, c, d, e, f, g, h], sep);
    JoinSeven(b, c, d, e, f, g, h, sep);
  }

  lemma JoinNine(a: string, b: string, c: string, d: string, e: string, f: string, g: string, h: string, k: string, sep: string)
    ensures Join([a, b, c, d, e, f, g, h, k], sep) == a + sep + b + sep + c + sep + d + sep + e + sep + f + sep + g + sep + h + sep + k
  {
    assert [a, b, c, d, e, f, g, h, k] == [a] + [b, c, d, e, f, g, h, k];
    JoinCons(a, [b, c, d, e, f, g, h, k], sep);
    JoinEight(b, c, d, e, f, g, h, k, sep);
  }

  lemma ConcatPrefix(a: string, b: string)
    ensures HasPrefix(a + b, a)
  {
    assert (a + b)[..|a|] == a;
  }

  /** A join of three or more fields starts with the first two, each followed by the separator. */
  lemma JoinPrefix2(ws: seq<string>, sep: string)
    requires |ws| >= 3
    ensures HasPrefix(Join(ws, sep), ws[0] + sep + ws[1] + sep)
  {
    JoinUnfold(ws, sep);
    JoinUnfold(ws[1..], sep);
    assert ws[1..][1..] == ws[2..];
    var rest := Join(ws[2..], sep);
    assert Join(ws, sep) == ws[0] + sep + ws[1] + sep + rest;
    ConcatPrefix(ws[0] + sep + ws[1] + sep, rest);
  }

  lemma JoinSnoc(ws: seq<string>, w: string, sep: string)
    requires |ws| > 0
    ensures Join(ws + [w], sep) == Join(ws, sep) + sep + w
    decreases |ws|
  {
    if |ws| == 1 {
      assert ws + [w] == [ws[0], w];
      assert Join([w], sep) == w;
    } else {
      assert (ws + [w])[1..] == ws[1..] + [w];
      JoinSnoc(ws[1..], w, sep);
    }
  }

  // ---------------------------------------------------------------------------
  // Lexicographic order on code points
  // ---------------------------------------------------------------------------

  /** `a` sorts no later than `b`, comparing code points from the left; a proper
      prefix sorts first. */
  predicate LexLe(a: string, b: string)
    decreases |a|
  {
    |a| == 0 || (|b| > 0 && (a[0] < b[0] || (a[0] == b[0] && LexLe(a[1..], b[1..]))))
  }

  lemma {:induction false} LexLeTotal(a: string, b: string)
    ensures LexLe(a, b) || LexLe(b, a)
    decreases |a|
  {
    if |a| > 0 && |b| > 0 && a[0] == b[0] {
      LexLeTotal(a[1..], b[1..]);
    }
  }

  lemma {:induction false} LexLeTransitive(a: string, b: string, c: string)
    requires LexLe(a, b) && LexLe(b, c)
    ensures LexLe(a, c)
    decreases |a|
  {
    if |a| > 0 && a[0] == b[0] && b[0] == c[0] {
      LexLeTransitive(a[1..], b[1..], c[1..]);
    }
  }

  lemma {:induction false} LexLeAntisymmetric(a: string, b: string)
    requires LexLe(a, b) && LexLe(b, a)
    ensures a == b
    decreases |a|
  {
    if |a| > 0 {
      LexLeAntisymmetric(a[1..], b[1..]);
      assert a == [a[0]] + a[1..] && b == [b[0]] + b[1..];
    }
  }
}
